=== FILE: README.md ===
# Attendance client: check-in, create and list logic

A Next.js client for an on-chain attendance program. A student opens a
check-in link (from a QR code), connects a wallet, enters a first and last
name, and signs one `checkIn` transaction for an event or one
`checkInSession` transaction for a class session. After a confirmed check-in
the page asks for a proof token to be minted. A teacher creates events and
classes through two forms, and sees lists of the events and classes their
wallet owns. Addresses of event and attendance accounts come from tagged seed
lists hashed under a fixed program id.

This project models that logic in Dafny:

- `Js`: the JavaScript behaviour the pages depend on. This covers truthiness of
  query parameters, `trim` with the ECMAScript whitespace set, `.length`
  counted in UTF-16 code units, `includes` as a case-sensitive substring
  test, and reading `.message` from a thrown value. A value that is `null` or
  `undefined` is `Nullish`; a thrown object is `Raised` with an optional
  message.
- `Utf8`, `Base36`: `Buffer.from(string)` and `Number.prototype.toString(36)`,
  each with an inverse, which give injectivity of seeds and event ids.
- `Program`: the `event` and `attendance` seed lists and the program id.
  `findProgramAddressSync` is a function parameter (`Deriver`).
- `CheckInErrors`, `StudentCheckIn`, `LegacyCheckIn`: the two student
  check-in pages. Each handler is a function of the link, the form inputs, the
  wallet, a key parser and the ledger. The ledger is a function from the
  submitted request to `Confirmed` or `Rejected(thrown)`. The newer page also
  takes the proof mint, a function from the mint request to the same two
  outcomes.
- `CreateEvent`, `CreateClass`: the two teacher forms. Each has its ordered
  validations, the submitted transaction, and the navigation taken on
  confirmation.
- `AccountQuery`, `StableSort`, `ListPage`, `EventList`, `ClassList`: the
  teacher list pages. These cover the query for one account type (its 8-byte
  discriminator at offset 0) owned by the wallet (its key at offset 8), one row
  per account with seconds scaled to milliseconds, a stable newest-first sort,
  and the order in which the page picks what to display.

Each async handler is modelled by its final state: the page state once every
awaited call has settled, the transaction submitted if any, and the
navigation or mint requested if any.

## Model

| member | source | states |
|---|---|---|
| `Js.Trim` | src/app/student/StudentPageClient.tsx:34 | the result is the input with a whitespace-only prefix and suffix removed, and does not itself start or end with whitespace; it is never longer than the input |
| `Js.TrimEmptyIff` | src/app/student/StudentPageClient.tsx:34 | `!s.trim()` holds exactly when every character of `s` is whitespace |
| `Js.TrimPadded` | src/app/teacher/classes/create/page.tsx:41 | trimming a word that has whitespace appended gives back the word |
| `Js.Utf16Length` | src/app/student/StudentPageClient.tsx:40 | `.length` lies between the character count and twice the character count |
| `Js.Utf16LengthAppend` | src/app/student/StudentPageClient.tsx:40 | `.length` of a concatenation is the sum of the lengths |
| `Js.TrimUtf16Shorter` | src/app/student/StudentPageClient.tsx:40 | the trimmed name is never longer in `.length` than the raw name that the bound is checked on |
| `Js.Utf16LengthBmp` | src/app/student/StudentPageClient.tsx:40 | for Basic Multilingual Plane text, `.length` equals the character count |
| `Js.Utf16LengthPadded` | src/app/teacher/classes/create/page.tsx:27 | each appended whitespace character adds exactly one to `.length` |
| `Js.OccursHasChar` | src/app/student/StudentPageClient.tsx:108-112 | a pattern with a character absent from the message cannot occur in it |
| `Js.Includes` | src/app/student/StudentPageClient.tsx:108-112 | `includes` is true exactly when the pattern occurs at some position of the message |
| `Js.MessageOrEmpty` | src/app/student/StudentPageClient.tsx:106 | `e?.message ?? ""` is the message when one is present, and "" for a nullish value or a missing message |
| `Js.MessageOr` | src/app/teacher/create/page.tsx:45 | reading `e.message` with a fallback fails (gives nothing) exactly for a nullish value; it is the message when that is non-empty and the fallback otherwise |
| `Utf8.EncodeChar` | src/lib/program.ts:27 | one character encodes to 1 to 4 bytes, one byte exactly for ASCII, later bytes all continuation bytes |
| `Utf8.Encode` | src/lib/program.ts:27 | `Buffer.from(s)` has between one and four bytes per character, one per character for ASCII |
| `Utf8.EncodeAscii` | src/lib/program.ts:27 | ASCII text encodes to its character codes |
| `Utf8.DecodeEncode` | src/lib/program.ts:27 | decoding inverts `Buffer.from` |
| `Utf8.EncodeInjective` | src/lib/program.ts:27 | two different event ids never give the same seed bytes |
| `Base36.DigitChar` | src/app/teacher/create/page.tsx:34 | every digit value below 36 maps to a base-36 digit character |
| `Base36.DigitValue` | src/app/teacher/create/page.tsx:34 | a character has a digit value exactly when it is a base-36 digit, and that value maps back to the same character |
| `Base36.ToBase36` | src/app/teacher/create/page.tsx:34 | `toString(36)` is non-empty, made only of `0-9a-z`, and starts with `0` only for zero itself |
| `Base36.FromToBase36` | src/app/teacher/create/page.tsx:34 | parsing the base-36 text of `n` gives back `n` |
| `Base36.ToBase36Injective` | src/app/teacher/create/page.tsx:34 | distinct timestamps have distinct base-36 texts |
| `Program.TagBytes` | src/lib/program.ts:27-38 | the `event` and `attendance` tags are the ASCII bytes of those words |
| `Program.EventSeeds` | src/lib/program.ts:25-31 | the event seeds are exactly three entries in order: the `event` tag, the authority key, and bytes that decode back to the event id |
| `Program.AttendanceSeeds` | src/lib/program.ts:33-42 | the attendance seeds are exactly three entries in order: the `attendance` tag, the event key, the attendee key |
| `Program.EventAddress` | src/lib/program.ts:25-31 | the event address is the derivation, under the program id `81UDr8A4MRvaxWmdPG72fFLMMxfDu634QmyykZj9JCp8`, of the bytes of "event", the authority's key bytes and the UTF-8 bytes of the event id |
| `Program.AttendanceAddress` | src/lib/program.ts:33-42 | the attendance address is the derivation, under the program id, of the bytes of "attendance", the event's key bytes and the attendee's key bytes, in that order |
| `Program.EventAddressDeterministic` | src/lib/program.ts:25-31 | the same authority and id always give the same event address, for any derivation (true by construction; `Program.EventSeedsInjective` carries the substance) |
| `Program.AttendanceAddressDeterministic` | src/lib/program.ts:33-42 | the same event and attendee always give the same attendance address, for any derivation (true by construction; `Program.AttendanceSeedsInjective` carries the substance) |
| `Program.EventAttendanceSeedsDiffer` | src/lib/program.ts:27-38 | an event seed list never equals an attendance seed list, as lists or as bytes |
| `Program.EventSeedsInjective` | src/lib/program.ts:27 | the concatenated event seed bytes determine both the authority and the event id |
| `Program.AttendanceSeedsInjective` | src/lib/program.ts:38 | the concatenated attendance seed bytes determine both the event and the attendee |
| `Program.AttendanceSeedsOrdered` | src/lib/program.ts:38 | swapping two distinct keys changes the attendance seeds |
| `CheckInErrors.TryAgain` | src/app/student/StudentPageClient.tsx:199-203 | Try Again sets the status back to idle and clears the error |
| `CheckInErrors.Classify` | src/app/student/StudentPageClient.tsx:108-116 | first match, as an if-and-only-if per category: "already in use" or "0x0" → already checked in; else "EventEnded" → ended; else "insufficient" → insufficient funds; else unknown |
| `CheckInErrors.ClassifyEmpty` | src/app/student/StudentPageClient.tsx:114-116 | an empty message is classified unknown |
| `CheckInErrors.ClassifyFirstMatch` | src/app/student/StudentPageClient.tsx:108-113 | a message containing a pattern gets that pattern's category or an earlier one |
| `CheckInErrors.ClassifyCaseSensitive` | src/app/student/StudentPageClient.tsx:110 | "eventended" in lower case does not match "EventEnded" |
| `CheckInErrors.TextsIdentifyCategory` | src/app/student/page.tsx:46-54 | on each page, no two categories share a text |
| `StudentCheckIn.TargetOf` | src/app/student/StudentPageClient.tsx:47-73 | a truthy `event` parameter targets that event text; otherwise truthy `class` and `session` target that class text and session text; otherwise there is no target |
| `StudentCheckIn.LandingIffNoTarget` | src/app/student/StudentPageClient.tsx:120 | the landing text is shown exactly for the links the handler rejects as invalid |
| `StudentCheckIn.NameError` | src/app/student/StudentPageClient.tsx:34-44 | a blank trimmed name reports the missing-name text first; otherwise a raw name over 32 code units reports the length text; there is no error exactly when both names are non-blank and both raw names fit in 32, and then the trimmed names fit too |
| `StudentCheckIn.Rejection` | src/app/student/StudentPageClient.tsx:102-117 | a value thrown in the `try` sets the error status; a nullish value or one without a message gets "Check-in failed. Please try again."; otherwise the text is the one for the message's category |
| `StudentCheckIn.HandleCheckIn` | src/app/student/StudentPageClient.tsx:28-118 | nothing happens without a program or wallet. Otherwise: success exactly when the submitted transaction confirms; submitted names are trimmed, non-empty and within bounds; with valid names, a link whose key parses always submits exactly one request: `checkIn` on the parsed `event` key, or else `checkInSession` on the parsed class key with the link's session; a key that does not parse shows the classified text of what it threw and submits nothing; a mint is requested exactly on success, for the wallet and the checked-in address; a rejection shows its classified text |
| `StudentCheckIn.MintOutcomeIgnored` | src/app/student/StudentPageClient.tsx:58-70 | whatever the mint does, the run is the same; a confirmed check-in is a success with no error and a mint request, even when the mint is rejected |
| `StudentCheckIn.NamesCheckedBeforeLedger` | src/app/student/StudentPageClient.tsx:34-44 | a failed name check ends with its text and submits nothing |
| `StudentCheckIn.BlankReportedBeforeLength` | src/app/student/StudentPageClient.tsx:34-38 | an all-whitespace name reports the missing-name text even when the other name is too long |
| `StudentCheckIn.PaddedNameRejected` | src/app/student/StudentPageClient.tsx:40 | a name that fits once trimmed is still rejected when trailing whitespace pushes the raw length past 32 |
| `StudentCheckIn.ValidCheckInSubmits` | src/app/student/StudentPageClient.tsx:34-98 | non-blank names within 32 code units and a link whose key parses always submit one request with the trimmed names, to the linked event or class |
| `StudentCheckIn.EventParamWins` | src/app/student/StudentPageClient.tsx:47 | with a truthy `event` parameter, the `class` and `session` parameters change nothing |
| `StudentCheckIn.IncompleteLinkRejected` | src/app/student/StudentPageClient.tsx:100-101 | without `event`, a link missing `class` or `session` ends with the invalid-link text and submits nothing |
| `StudentCheckIn.Render` | src/app/student/StudentPageClient.tsx:120-213 | the landing text appears exactly for target-less links; the connect prompt appears exactly without a wallet; the name form appears exactly for a connected, idle page; the spinner exactly while loading, the success panel exactly on success, and the error panel exactly on error, showing the error text; at most one of these is shown |
| `StudentCheckIn.TryAgainShowsForm` | src/app/student/StudentPageClient.tsx:199-203 | after Try Again, a connected wallet sees the name form and no error panel |
| `StudentCheckIn.RunShowsOutcome` | src/app/student/StudentPageClient.tsx:186-198 | after a handler run with a wallet, the screen shows the success panel or the error text, never the form |
| `LegacyCheckIn.Rejection` | src/app/student/page.tsx:40-55 | a thrown error is shown as its classified text; for a nullish thrown value the error text stays "" |
| `LegacyCheckIn.HandleCheckIn` | src/app/student/page.tsx:22-56 | nothing happens without a program, a wallet or a truthy `event`. Otherwise an event key that parses is always submitted as the wallet's `checkIn` on that key, and one that does not shows the text for what it threw and submits nothing; success exactly when the submitted check-in confirms; a rejection shows its classified text |
| `LegacyCheckIn.NoMessageIsGeneric` | src/app/student/page.tsx:45 | a thrown error with a missing or empty message gets the generic text |
| `LegacyCheckIn.NullishDiffersBetweenPages` | src/app/student/page.tsx:45 | for a nullish thrown value this page leaves the error text empty, while the newer page shows the generic text |
| `LegacyCheckIn.SameCategoryAsNewerPage` | src/app/student/page.tsx:46-54 | for a thrown error object both pages choose the same category, differing only in wording |
| `LegacyCheckIn.Render` | src/app/student/page.tsx:59-137 | the landing text appears exactly without a truthy `event`; the connect prompt appears exactly without a wallet; the button appears exactly for a connected, idle page; the spinner exactly while loading, the success panel exactly on success, and the error panel exactly on error, showing the error text; at most one of these is shown |
| `LegacyCheckIn.TryAgainShowsButton` | src/app/student/page.tsx:122-126 | after Try Again, a connected wallet sees the check-in button and no error panel |
| `LegacyCheckIn.RunShowsOutcome` | src/app/student/page.tsx:104-121 | after a handler run with a program, a wallet and a truthy `event`, the screen shows the success panel or the error panel with the error text, never the button |
| `CreateEvent.EventId` | src/app/teacher/create/page.tsx:34 | the event id is `evt-` followed by base-36 digits |
| `CreateEvent.EventIdRoundTrip` | src/app/teacher/create/page.tsx:34 | the timestamp can be read back from the event id |
| `CreateEvent.EventIdInjective` | src/app/teacher/create/page.tsx:34 | different timestamps give different event ids |
| `CreateEvent.HandleCreate` | src/app/teacher/create/page.tsx:20-49 | nothing happens without a program or wallet. A name over 64 code units sets only the error. Otherwise one `createEvent` goes out with the wallet, the untrimmed name, the duration and the id `evt-` followed by the clock in base 36, and loading ends false. Navigation happens exactly on confirmation, to the event address of the submitted authority and id. A rejection sets the message, the fallback, or leaves "" for a nullish value |
| `CreateEvent.SubmitDisabled` | src/app/teacher/create/page.tsx:102 | the Create Event button is disabled exactly while loading or while the name is all whitespace |
| `CreateEvent.EnabledButtonSubmitsNonBlankName` | src/app/teacher/create/page.tsx:102 | when the button is enabled, the submitted name is not all whitespace, though it is sent untrimmed |
| `CreateEvent.NavigatesToCreatedEvent` | src/app/teacher/create/page.tsx:41-42 | on confirmation the page opens `getEventPDA(wallet, evt-<clock>)` under the program id |
| `CreateClass.Validate` | src/app/teacher/classes/create/page.tsx:23-35 | as an if-and-only-if per check, in order: blank trimmed id, raw id over 16, raw name over 64; there is no error exactly when the id is not blank, the raw id fits in 16 and the raw name fits in 64, and then the trimmed values are within bounds |
| `CreateClass.HandleCreate` | src/app/teacher/classes/create/page.tsx:20-53 | nothing happens without a program or wallet. A failed check sets only its text. Otherwise `createClass` goes out with the trimmed id and name, and loading ends false. Navigation happens exactly on confirmation, to the class address of the submitted teacher and id. A rejection sets the message, the fallback, or leaves "" for a nullish value |
| `CreateClass.BlankIdReportedFirst` | src/app/teacher/classes/create/page.tsx:23-26 | a blank id is reported first, however long the id or name |
| `CreateClass.PaddedIdRejected` | src/app/teacher/classes/create/page.tsx:27-30 | an id that fits once trimmed is rejected when trailing whitespace pushes its raw length past 16 |
| `CreateClass.PaddedIdInvalid` | src/app/teacher/classes/create/page.tsx:27 | such a padded id fails validation with the id-length text, though its trim is the original id |
| `CreateClass.SubmitDisabled` | src/app/teacher/classes/create/page.tsx:101 | the Create Class button is disabled exactly while loading or while the class id or the name is all whitespace |
| `CreateClass.ValidFormSubmits` | src/app/teacher/classes/create/page.tsx:20-43 | a non-blank id within 16 code units and a name within 64 always submit `createClass` with the trimmed id and name |
| `CreateClass.EnabledButtonSubmitsNonBlank` | src/app/teacher/classes/create/page.tsx:101 | with the button enabled, any submitted class id and name are non-blank |
| `AccountQuery.OwnerFilter` | src/app/teacher/main/page.tsx:34-41 | the filter compares the wallet key at offset 8 |
| `AccountQuery.OwnerFilterExact` | src/app/teacher/main/page.tsx:33-41 | the offset-8 filter matches an account exactly when its owner field, right after the 8-byte discriminator, is the wallet |
| `AccountQuery.TypedFilters` | src/app/teacher/main/page.tsx:34 | `account.X.all(filters)` sends a filter on X's discriminator at offset 0, followed by the caller's filters unchanged |
| `AccountQuery.OwnedByExact` | src/app/teacher/classes/page.tsx:34-38 | the filters a list page sends match an account exactly when it has the page's discriminator and its owner field is the wallet |
| `AccountQuery.LayoutOwner` | src/app/teacher/classes/page.tsx:34-38 | data laid out as discriminator, owner and other fields has that type and that owner |
| `AccountQuery.Select` | src/app/teacher/main/page.tsx:34-41 | the query returns store accounts that pass every filter of the list, and every store account that passes them all |
| `AccountQuery.SelectOwned` | src/app/teacher/classes/page.tsx:34-38 | the typed owner query returns exactly the accounts of the page's type whose owner field is the wallet |
| `AccountQuery.OtherTypeExcluded` | src/app/teacher/main/page.tsx:34 | an account of another type is never returned, whoever owns it |
| `StableSort.Insert` | src/app/teacher/main/page.tsx:53 | inserting into a descending list keeps it descending and adds exactly that element |
| `StableSort.SortDesc` | src/app/teacher/main/page.tsx:53 | the result is a permutation of the input (equal multisets), ordered by key non-increasing |
| `StableSort.InsertKeepsTies` | src/app/teacher/main/page.tsx:53 | insertion puts the new element ahead of the existing elements with its key |
| `StableSort.SortDescStable` | src/app/teacher/classes/page.tsx:50 | for every key value, the sorted list holds the elements with that key in their original order |
| `ListPage.Refresh` | src/app/teacher/main/page.tsx:26-62 | nothing happens without a program or wallet. Otherwise the page's discriminator filter and the owner filter are queried and loading ends false. On success the rows are a permutation of the mapped accounts, sorted by key non-increasing, with the error cleared. On failure the old rows stay, and the error is the message or fallback, or "" for a nullish value |
| `ListPage.Show` | src/app/teacher/main/page.tsx:68-101 | as an if-and-only-if per branch, in order: no wallet → connect prompt; loading → loading notice; non-empty error → error notice; no rows → empty notice with create link; else the rows |
| `ListPage.RefreshShows` | src/app/teacher/classes/page.tsx:65-94 | after a refresh with a wallet the page never shows the loading notice; it shows the rows or the empty notice on success, always an error notice for a thrown error object, and the old rows or the empty notice for a nullish thrown value |
| `ListPage.RefreshListsOwned` | src/app/teacher/main/page.tsx:26-55 | against a store of accounts of several types, every listed row comes from an account of the page's type that the wallet owns, and every such account is listed |
| `ListPage.CreatedAccountListed` | src/app/teacher/main/page.tsx:34-41 | an account of the page's type laid out as discriminator, the wallet's key, then other fields is always listed by a refresh |
| `EventList.ToRow` | src/app/teacher/main/page.tsx:43-50 | a row carries the account's address, name, event id and attendee count, and its start and end times multiplied by 1000 |
| `EventList.FetchEvents` | src/app/teacher/main/page.tsx:26-62 | `fetchEvents` queries only with a program and wallet; on success as many rows as accounts with the error cleared; on failure the old rows, with the message or "Failed to load events" |
| `EventList.FetchedRows` | src/app/teacher/main/page.tsx:43-53 | after a successful fetch, the rows are the scaled accounts: same count, a permutation, newest `startTime` first, each row matching one account with times × 1000 |
| `EventList.SameStartKeepsOrder` | src/app/teacher/main/page.tsx:53 | events with the same start keep the order the query returned them in |
| `ClassList.ToRow` | src/app/teacher/classes/page.tsx:40-48 | a row carries the account's address, name, class id, session number and active flag, and its session start and end multiplied by 1000 |
| `ClassList.FetchClasses` | src/app/teacher/classes/page.tsx:27-59 | `fetchClasses` queries only with a program and wallet; on success as many rows as accounts with the error cleared; on failure the old rows, with the message or "Failed to load classes" |
| `ClassList.FetchedRows` | src/app/teacher/classes/page.tsx:40-50 | after a successful fetch, the rows are the scaled accounts: same count, a permutation, latest `sessionStart` first, each row matching one account |
| `ClassList.SameStartKeepsOrder` | src/app/teacher/classes/page.tsx:50 | classes with the same session start keep the order the query returned them in |
| `ClassList.Label` | src/app/teacher/classes/page.tsx:118-119 | the label is "ACTIVE" exactly when the class is active, and "INACTIVE" exactly when it is not |

## Left out

- The on-chain attendance program and the Anchor client: transactions, account decoding and RPC are function parameters (the ledger and query outcomes).
- The hashing and bump search inside `findProgramAddressSync`, and its 32-byte per-seed limit: derivation is an uninterpreted function of the seed list and program id.
- `getClassPDA` (class seeds): `src/lib/program.ts` does not define it, so the class address is a function parameter of the create-class form.
- `src/lib/cnft.ts` (proof minting) is not part of this model: the mint is a function parameter from the request to `Confirmed` or `Rejected`, and the handler records the request and ignores the outcome, as on the page.
- The discriminator bytes of the `event` and `class` account types come from the program's IDL (`attendance.json`), which is not part of this model: they are a parameter of each list page's fetch.
- Base58 text of keys (`toBase58`, route strings) and `new PublicKey(text)`: keys are 32-byte sequences; parsing is a parameter that yields a key or a thrown value; routes carry the key.
- StudentCheckIn.HandleCheckIn: the session parameter is passed on as text; `Number(session)` and its `NaN` case are not modelled.
- EventList.FetchedRows: `Number(...)` of on-chain 64-bit integers is taken as exact; float rounding above 2^53 is not modelled.
- ClassList.FetchedRows: `Number(...)` of on-chain 64-bit integers is taken as exact; `Boolean(isActive)` is taken to be the decoded flag.
- `Date.now()` is a parameter (a non-negative millisecond count), and `toLocaleString` rendering of times is not modelled.
- The inputs' `maxLength` attributes (32 for each name on the check-in page, 64 for the event name, 16 for the class id and 64 for the class name) are not modelled: each handler is modelled on arbitrary state strings, so its over-length branches, which typing into the rendered inputs cannot reach, are modelled as written.
- Intermediate renders while a handler awaits (the "loading" status, `loading` true): only the state after every awaited call has settled is modelled.
- Lone UTF-16 surrogates in names: Dafny characters are Unicode scalar values, so they cannot occur in the model.
- `console.error` / `console.warn` logging.
- `scripts/createTree.ts`, `src/app/api/proof/route.ts`, `TeacherNav.tsx`, the home page and the per-event and per-class dashboard pages: outside the modelled logic.
- Automatic refresh: the list pages fetch on mount and on Refresh, and each fetch is one call of the refresh function; no polling is modelled.

=== FILE: account_query.dfy ===
/**
 * The scoped account query the list pages issue: `account.X.all([{ memcmp:
 * { offset: 8, bytes: owner } }])`. An account's data starts with an 8-byte
 * discriminator naming its type, and its first field, the owning key,
 * follows directly. Anchor's `account.X.all` puts a filter on type X's
 * discriminator at offset 0 in front of the caller's filters. `Select` is the
 * reference meaning of a filter list over a store of accounts.
 */
module AccountQuery {
  import opened Wrappers
  import opened Bytes

  const DiscriminatorSize: nat := 8

  /** The 8 bytes at the start of an account that name its type. */
  type Discriminator = s: seq<byte> | |s| == DiscriminatorSize witness seq(8, i => 0)

  /** A `memcmp` filter: the bytes expected at an offset of the account data. */
  datatype Memcmp = Memcmp(offset: nat, bytes: seq<byte>)

  predicate Matches(f: Memcmp, data: seq<byte>) {
    f.offset + |f.bytes| <= |data| && data[f.offset..f.offset + |f.bytes|] == f.bytes
  }

  /** The node keeps an account only when every filter of the list matches. */
  predicate MatchesAll(fs: seq<Memcmp>, data: seq<byte>) {
    forall k :: 0 <= k < |fs| ==> Matches(fs[k], data)
  }

  /** The filter both list pages send: the wallet key right after the discriminator. */
  function OwnerFilter(owner: Key): (f: Memcmp)
    ensures f.offset == DiscriminatorSize && f.bytes == owner
  {
    Memcmp(DiscriminatorSize, owner)
  }

  /** `account.X.all(filters)`: the type's discriminator filter, then the caller's filters. */
  function TypedFilters(discriminator: Discriminator, filters: seq<Memcmp>): (fs: seq<Memcmp>)
    ensures |fs| == |filters| + 1 && fs[0] == Memcmp(0, discriminator) && fs[1..] == filters
  {
    [Memcmp(0, discriminator)] + filters
  }

  /** The filter list a list page's query reaches the node with. */
  function OwnedBy(discriminator: Discriminator, owner: Key): seq<Memcmp> {
    TypedFilters(discriminator, [OwnerFilter(owner)])
  }

  /** The type of an account, read from its first 8 bytes. */
  function TypeField(data: seq<byte>): Option<Discriminator> {
    if |data| >= DiscriminatorSize then Some(data[..DiscriminatorSize]) else None
  }

  /** The owning key of an account, read from the bytes after the discriminator. */
  function OwnerField(data: seq<byte>): Option<Key> {
    if |data| >= DiscriminatorSize + KeySize then Some(data[DiscriminatorSize..DiscriminatorSize + KeySize])
    else None
  }

  /** The account is of the given type and the given key owns it. */
  predicate IsOwnedOfType(data: seq<byte>, discriminator: Discriminator, owner: Key) {
    TypeField(data) == Some(discriminator) && OwnerField(data) == Some(owner)
  }

  /** The owner filter matches an account exactly when the account's owning key is the wallet. */
  lemma OwnerFilterExact(data: seq<byte>, owner: Key)
    ensures Matches(OwnerFilter(owner), data) <==> OwnerField(data) == Some(owner)
  {
  }

  /** A typed owner query matches exactly the accounts of that type whose owning key is the wallet. */
  lemma OwnedByExact(data: seq<byte>, discriminator: Discriminator, owner: Key)
    ensures MatchesAll(OwnedBy(discriminator, owner), data) <==> IsOwnedOfType(data, discriminator, owner)
  {
    var fs := OwnedBy(discriminator, owner);
    assert fs[0] == Memcmp(0, discriminator) && fs[1] == OwnerFilter(owner);
    OwnerFilterExact(data, owner);
    if IsOwnedOfType(data, discriminator, owner) {
      assert Matches(fs[0], data);
      assert forall k :: 0 <= k < |fs| ==> fs[k] == fs[0] || fs[k] == fs[1];
    }
  }

  /** For data laid out as discriminator, owner, other fields, the type and owner fields are those. */
  lemma LayoutOwner(discriminator: Discriminator, owner: Key, fields: seq<byte>)
    ensures TypeField(discriminator + owner + fields) == Some(discriminator)
    ensures OwnerField(discriminator + owner + fields) == Some(owner)
  {
    var data := discriminator + owner + fields;
    assert data[..DiscriminatorSize] == discriminator;
    assert data[DiscriminatorSize..DiscriminatorSize + KeySize] == owner;
  }

  /** A stored account: its address and raw data. */
  datatype Raw = Raw(address: Key, data: seq<byte>)

  /** The accounts of a store that pass every filter of a list, in store order. */
  function Select(store: seq<Raw>, fs: seq<Memcmp>): (r: seq<Raw>)
    ensures |r| <= |store|
    ensures forall k :: 0 <= k < |r| ==> r[k] in store && MatchesAll(fs, r[k].data)
    ensures forall k :: 0 <= k < |store| && MatchesAll(fs, store[k].data) ==> store[k] in r
  {
    if store == [] then []
    else
      var rest := Select(store[1..], fs);
      assert forall k :: 1 <= k < |store| ==> store[k] == store[1..][k - 1];
      if MatchesAll(fs, store[0].data) then [store[0]] + rest else rest
  }

  /** A typed owner query returns exactly the wallet's accounts of that type. */
  lemma SelectOwned(store: seq<Raw>, discriminator: Discriminator, owner: Key)
    ensures var sel := Select(store, OwnedBy(discriminator, owner));
      forall k :: 0 <= k < |sel| ==> IsOwnedOfType(sel[k].data, discriminator, owner)
    ensures forall k :: 0 <= k < |store| && IsOwnedOfType(store[k].data, discriminator, owner) ==>
      store[k] in Select(store, OwnedBy(discriminator, owner))
  {
    var sel := Select(store, OwnedBy(discriminator, owner));
    forall k | 0 <= k < |sel| ensures IsOwnedOfType(sel[k].data, discriminator, owner) {
      OwnedByExact(sel[k].data, discriminator, owner);
    }
    forall k | 0 <= k < |store| && IsOwnedOfType(store[k].data, discriminator, owner) ensures store[k] in sel {
      OwnedByExact(store[k].data, discriminator, owner);
    }
  }

  /** An account of another type is never returned, whoever owns it. */
  lemma OtherTypeExcluded(store: seq<Raw>, discriminator: Discriminator, owner: Key, raw: Raw)
    requires TypeField(raw.data) != Some(discriminator)
    ensures raw !in Select(store, OwnedBy(discriminator, owner))
  {
    if raw in Select(store, OwnedBy(discriminator, owner)) {
      OwnedByExact(raw.data, discriminator, owner);
    }
  }
}

=== FILE: base36.dfy ===
/**
 * `Number.prototype.toString(36)` on a non-negative integer, and its inverse,
 * as used to build event identifiers from `Date.now()`.
 */
module Base36 {
  import opened Wrappers

  /** The characters `toString(36)` writes: `0`-`9` then `a`-`z`. */
  predicate IsDigit(c: char) {
    ('0' <= c <= '9') || ('a' <= c <= 'z')
  }

  /** The digit character for `d`. */
  function DigitChar(d: nat): (c: char)
    requires d < 36
    ensures IsDigit(c)
  {
    if d < 10 then (48 + d) as char else (87 + d) as char
  }

  /** The value of a digit character, if it is one. */
  function DigitValue(c: char): (r: Option<nat>)
    ensures r.Some? <==> IsDigit(c)
    ensures r.Some? ==> r.value < 36 && DigitChar(r.value) == c
  {
    if '0' <= c <= '9' then Some(c as int - 48)
    else if 'a' <= c <= 'z' then Some(c as int - 87)
    else None
  }

  /** `n.toString(36)`: most significant digit first, no leading zeros. */
  function ToBase36(n: nat): (s: string)
    ensures |s| >= 1
    ensures forall k :: 0 <= k < |s| ==> IsDigit(s[k])
    ensures s[0] == '0' ==> n == 0 && s == "0"
  {
    if n < 36 then [DigitChar(n)] else ToBase36(n / 36) + [DigitChar(n % 36)]
  }

  /** `parseInt(s, 36)` restricted to strings made only of digits. */
  function FromBase36(s: string): Option<nat>
  {
    if s == [] then None
    else
      var last := DigitValue(s[|s| - 1]);
      if last.None? then None
      else if |s| == 1 then Some(last.value)
      else
        match FromBase36(s[..|s| - 1])
        case None => None
        case Some(high) => Some(high * 36 + last.value)
  }

  lemma DigitRoundTrip(d: nat)
    requires d < 36
    ensures DigitValue(DigitChar(d)) == Some(d)
  {
  }

  /** Parsing the base-36 rendering of `n` gives back `n`. */
  lemma {:induction false} FromToBase36(n: nat)
    ensures FromBase36(ToBase36(n)) == Some(n)
  {
    if n < 36 {
      DigitRoundTrip(n);
    } else {
      var high := ToBase36(n / 36);
      var s := high + [DigitChar(n % 36)];
      assert s == ToBase36(n);
      FromToBase36(n / 36);
      DigitRoundTrip(n % 36);
      assert s[..|s| - 1] == high;
      assert s[|s| - 1] == DigitChar(n % 36);
      assert |s| > 1;
      assert FromBase36(s) == Some((n / 36) * 36 + n % 36);
    }
  }

  /** Distinct timestamps render differently. */
  lemma ToBase36Injective(m: nat, n: nat)
    requires ToBase36(m) == ToBase36(n)
    ensures m == n
  {
    FromToBase36(m);
    FromToBase36(n);
  }
}

=== FILE: bytes.dfy ===
/** Bytes and 32-byte public keys, as `Buffer` and `PublicKey.toBuffer()` present them. */
module Bytes {

  type byte = x: int | 0 <= x < 256

  const KeySize: nat := 32

  /** A public key or derived address: exactly 32 bytes. */
  type Key = s: seq<byte> | |s| == KeySize witness seq(32, i => 0)
}

=== FILE: checkin_errors.dfy ===
/**
 * What the two student check-in pages share: the page status, the Try Again
 * reset, and the first-match substring classifier that turns a failed
 * transaction's message into one of four user-facing categories. Each page has
 * its own wording for the categories.
 */
module CheckInErrors {
  import opened Js

  /** `type Status = "idle" | "loading" | "success" | "error"`. */
  datatype Status = Idle | Loading | Succeeded | Errored

  /** The page's `status` and `error` state. */
  datatype PageState = PageState(status: Status, error: string)

  /** The Try Again button: back to idle with no error text. */
  function TryAgain(s: PageState): (r: PageState)
    ensures r.status == Idle && r.error == ""
  {
    PageState(Idle, "")
  }

  /** The failure categories the classifier distinguishes. */
  datatype Failure = AlreadyCheckedIn | Ended | InsufficientFunds | Unknown

  /**
   * First match in a fixed order, case-sensitive: "already in use" or "0x0",
   * then "EventEnded", then "insufficient", else unknown.
   */
  function Classify(msg: string): (k: Failure)
    ensures k == AlreadyCheckedIn <==> Occurs("already in use", msg) || Occurs("0x0", msg)
    ensures k == Ended <==>
      !Occurs("already in use", msg) && !Occurs("0x0", msg) && Occurs("EventEnded", msg)
    ensures k == InsufficientFunds <==>
      !Occurs("already in use", msg) && !Occurs("0x0", msg) && !Occurs("EventEnded", msg)
      && Occurs("insufficient", msg)
    ensures k == Unknown <==>
      !Occurs("already in use", msg) && !Occurs("0x0", msg) && !Occurs("EventEnded", msg)
      && !Occurs("insufficient", msg)
  {
    if Includes(msg, "already in use") || Includes(msg, "0x0") then AlreadyCheckedIn
    else if Includes(msg, "EventEnded") then Ended
    else if Includes(msg, "insufficient") then InsufficientFunds
    else Unknown
  }

  /** A missing or empty message falls through every pattern. */
  lemma ClassifyEmpty()
    ensures Classify("") == Unknown
  {
  }

  /** A message that holds a pattern is classified no lower than that pattern's category. */
  lemma ClassifyFirstMatch(msg: string)
    ensures Occurs("0x0", msg) ==> Classify(msg) == AlreadyCheckedIn
    ensures Occurs("EventEnded", msg) ==> Classify(msg) in {AlreadyCheckedIn, Ended}
    ensures Occurs("insufficient", msg) ==> Classify(msg) != Unknown
  {
  }

  /** Matching is case-sensitive: "eventended" is not "EventEnded". */
  lemma ClassifyCaseSensitive()
    ensures Classify("eventended") == Unknown
  {
    var m := "eventended";
    OccursHasChar("already in use", m, 0);
    OccursHasChar("0x0", m, 0);
    OccursHasChar("EventEnded", m, 0);
    OccursHasChar("insufficient", m, 0);
  }

  /** The texts `StudentPageClient` shows. */
  function ClientText(k: Failure): string {
    match k
    case AlreadyCheckedIn => "You've already checked in!"
    case Ended => "This event or session has ended."
    case InsufficientFunds => "Insufficient SOL for transaction fees."
    case Unknown => "Check-in failed. Please try again."
  }

  /** The texts the event-only page shows. */
  function LegacyText(k: Failure): string {
    match k
    case AlreadyCheckedIn => "You've already checked in to this event!"
    case Ended => "This event has ended."
    case InsufficientFunds => "Insufficient SOL. You need ~0.002 SOL for the check-in fee."
    case Unknown => "Check-in failed. Please try again."
  }

  /** Each page's text names its category: no two categories share a text. */
  lemma TextsIdentifyCategory(k1: Failure, k2: Failure)
    ensures ClientText(k1) == ClientText(k2) ==> k1 == k2
    ensures LegacyText(k1) == LegacyText(k2) ==> k1 == k2
  {
  }
}

=== FILE: class_list.dfy ===
/**
 * The teacher's class list (`src/app/teacher/classes/page.tsx`): the
 * wallet's class accounts, session times scaled from on-chain seconds to
 * milliseconds, latest session start first, each with an activity label.
 */
module ClassList {
  import opened Wrappers
  import opened Bytes
  import opened AccountQuery
  import opened StableSort
  import opened ListPage

  /** The decoded on-chain class account; session times are unix seconds. */
  datatype ClassAccount = ClassAccount(teacher: Key, classId: string, name: string, currentSession: int,
                                       isActive: bool, sessionStart: int, sessionEnd: int)

  /** A row of the list; session times are milliseconds. */
  datatype TeacherClass = TeacherClass(pda: Key, name: string, classId: string, currentSession: int,
                                       isActive: bool, sessionStart: int, sessionEnd: int)

  const FallbackText: string := "Failed to load classes"

  /** The row shows the fetched account's fields, its session times multiplied by 1000. */
  predicate ScaledFrom(row: TeacherClass, acc: Fetched<ClassAccount>) {
    && row.pda == acc.publicKey && row.name == acc.account.name && row.classId == acc.account.classId
    && row.currentSession == acc.account.currentSession && row.isActive == acc.account.isActive
    && row.sessionStart == 1000 * acc.account.sessionStart && row.sessionEnd == 1000 * acc.account.sessionEnd
  }

  /** The `accounts.map` callback. */
  function ToRow(acc: Fetched<ClassAccount>): (row: TeacherClass)
    ensures ScaledFrom(row, acc)
  {
    TeacherClass(acc.publicKey, acc.account.name, acc.account.classId, acc.account.currentSession,
                 acc.account.isActive, acc.account.sessionStart * 1000, acc.account.sessionEnd * 1000)
  }

  function SessionStart(row: TeacherClass): int {
    row.sessionStart
  }

  /** `fetchClasses`. */
  function FetchClasses(program: bool, wallet: Option<Key>, discriminator: Discriminator,
                        prior: ListState<TeacherClass>,
                        query: Query<ClassAccount>): (r: Listing<TeacherClass>)
    ensures !program || wallet.None? ==> r == Listing(prior, None)
    ensures program && wallet.Some? ==> r.queried == Some(OwnedBy(discriminator, wallet.value)) && !r.state.loading
    ensures r.queried.Some? && query(r.queried.value).Accounts? ==>
      |r.state.rows| == |query(r.queried.value).items| && r.state.error == ""
    ensures r.queried.Some? && query(r.queried.value).QueryFailed? ==> r.state.rows == prior.rows
    ensures r.queried.Some? && query(r.queried.value).QueryFailed? && query(r.queried.value).thrown.Raised? ==>
      var m := query(r.queried.value).thrown.message;
      r.state.error == (if m.Some? && m.value != "" then m.value else FallbackText)
  {
    Refresh(program, wallet, discriminator, prior, query, ToRow, SessionStart, FallbackText)
  }

  /**
   * A successful fetch shows exactly the fetched classes, every row the
   * fetched account with its session times multiplied by 1000, the latest
   * session start first.
   */
  lemma FetchedRows(wallet: Key, discriminator: Discriminator, prior: ListState<TeacherClass>,
                    query: Query<ClassAccount>)
    requires query(OwnedBy(discriminator, wallet)).Accounts?
    ensures var xs := query(OwnedBy(discriminator, wallet)).items;
      var rows := FetchClasses(true, Some(wallet), discriminator, prior, query).state.rows;
      && |rows| == |xs|
      && multiset(rows) == multiset(MapRows(xs, ToRow))
      && (forall i, j :: 0 <= i < j < |rows| ==> rows[i].sessionStart >= rows[j].sessionStart)
      && (forall i :: 0 <= i < |rows| ==> exists k :: 0 <= k < |xs| && ScaledFrom(rows[i], xs[k]))
  {
    var xs := query(OwnedBy(discriminator, wallet)).items;
    var mapped := MapRows(xs, ToRow);
    var rows := FetchClasses(true, Some(wallet), discriminator, prior, query).state.rows;
    assert SortedDesc(rows, SessionStart);
    forall i, j | 0 <= i < j < |rows| ensures rows[i].sessionStart >= rows[j].sessionStart {
      assert SessionStart(rows[i]) >= SessionStart(rows[j]);
    }
    forall i | 0 <= i < |rows|
      ensures exists k :: 0 <= k < |xs| && ScaledFrom(rows[i], xs[k])
    {
      MultisetMember(rows[i], rows, mapped);
      var k :| 0 <= k < |mapped| && mapped[k] == rows[i];
      assert rows[i] == ToRow(xs[k]);
    }
  }

  /** Classes whose sessions start at the same second keep the order the query returned them in. */
  lemma SameStartKeepsOrder(wallet: Key, discriminator: Discriminator, prior: ListState<TeacherClass>,
                            query: Query<ClassAccount>, ms: int)
    requires query(OwnedBy(discriminator, wallet)).Accounts?
    ensures var xs := query(OwnedBy(discriminator, wallet)).items;
      WithKey(FetchClasses(true, Some(wallet), discriminator, prior, query).state.rows, SessionStart, ms)
        == WithKey(MapRows(xs, ToRow), SessionStart, ms)
  {
    SortDescStable(MapRows(query(OwnedBy(discriminator, wallet)).items, ToRow), SessionStart, ms);
  }

  /** The status label of a row. */
  function Label(row: TeacherClass): (s: string)
    ensures s == "ACTIVE" <==> row.isActive
    ensures s == "INACTIVE" <==> !row.isActive
  {
    if row.isActive then "ACTIVE" else "INACTIVE"
  }
}

=== FILE: collaborators.dfy ===
/**
 * The shapes in which the pages see their collaborators: what awaiting a
 * ledger transaction (`.rpc()`) yields, how `new PublicKey(text)` parses a
 * key, and where `router.push` navigates.
 */
module Collaborators {
  import opened Wrappers
  import opened Bytes
  import opened Js

  /** Awaiting `.rpc()`: the transaction confirms, or the promise rejects with a thrown value. */
  datatype Outcome = Confirmed | Rejected(thrown: Thrown)

  /** `new PublicKey(text)`: a key, or the error it throws. */
  type KeyParser = string -> Result<Key, Thrown>

  /** A `router.push` target: an event dashboard or a class dashboard, by address. */
  datatype Route = EventPage(address: Key) | ClassPage(address: Key)
}

=== FILE: create_class.dfy ===
/**
 * The create-class form (`src/app/teacher/classes/create/page.tsx`): ordered
 * checks on the class id and name, one `createClass` transaction with the
 * trimmed values, and navigation to the class address derived from the id that
 * was submitted. The class address derivation is a parameter.
 */
module CreateClass {
  import opened Wrappers
  import opened Bytes
  import opened Js
  import opened Collaborators

  const ClassIdLimit: nat := 16
  const NameLimit: nat := 64
  const MissingIdText := "Class ID is required."
  const IdTooLongText := "Class ID must be 16 characters or less."
  const NameTooLongText := "Class name must be 64 characters or less."
  const FallbackText := "Failed to create class"

  datatype Form = Form(classId: string, name: string, loading: bool, error: string)

  /** `createClass(classId, name)` signed by the teacher. */
  datatype Request = Request(teacher: Key, classId: string, name: string)

  datatype Run = Run(form: Form, submitted: Option<Request>, navigatedTo: Option<Route>)

  /** `getClassPDA(teacher, classId)`, not defined in the model. */
  type ClassDeriver = (Key, string) -> Key

  /** The checks in order: blank id after trimming, id too long, name too long (both before trimming). */
  function Validate(form: Form): (r: Option<string>)
    ensures r == Some(MissingIdText) <==> AllWhitespace(form.classId)
    ensures r == Some(IdTooLongText) <==>
      !AllWhitespace(form.classId) && Utf16Length(form.classId) > ClassIdLimit
    ensures r == Some(NameTooLongText) <==>
      !AllWhitespace(form.classId) && Utf16Length(form.classId) <= ClassIdLimit
      && Utf16Length(form.name) > NameLimit
    ensures r.None? <==>
      !AllWhitespace(form.classId) && Utf16Length(form.classId) <= ClassIdLimit
      && Utf16Length(form.name) <= NameLimit
    ensures r.None? ==>
      Trim(form.classId) != "" && Utf16Length(Trim(form.classId)) <= ClassIdLimit
      && Utf16Length(Trim(form.name)) <= NameLimit
  {
    TrimEmptyIff(form.classId);
    TrimUtf16Shorter(form.classId);
    TrimUtf16Shorter(form.name);
    if Trim(form.classId) == "" then Some(MissingIdText)
    else if Utf16Length(form.classId) > ClassIdLimit then Some(IdTooLongText)
    else if Utf16Length(form.name) > NameLimit then Some(NameTooLongText)
    else None
  }

  /** The Create Class button is disabled while loading or while either trimmed field is blank. */
  function SubmitDisabled(form: Form): (disabled: bool)
    ensures disabled <==> form.loading || AllWhitespace(form.classId) || AllWhitespace(form.name)
  {
    TrimEmptyIff(form.classId);
    TrimEmptyIff(form.name);
    form.loading || Trim(form.classId) == "" || Trim(form.name) == ""
  }

  /** `handleCreate`. */
  function HandleCreate(program: bool, wallet: Option<Key>, form: Form, ledger: Request -> Outcome,
                        classAddress: ClassDeriver): (r: Run)
    ensures !program || wallet.None? ==> r == Run(form, None, None)
    // a failed check sets its text and returns before loading is set
    ensures program && wallet.Some? && Validate(form).Some? ==>
      r == Run(form.(error := Validate(form).value), None, None)
    // otherwise the trimmed values go out, within their bounds, and loading ends false
    ensures program && wallet.Some? && Validate(form).None? ==>
      && r.submitted == Some(Request(wallet.value, Trim(form.classId), Trim(form.name)))
      && r.submitted.value.classId != ""
      && Utf16Length(r.submitted.value.classId) <= ClassIdLimit
      && Utf16Length(r.submitted.value.name) <= NameLimit
      && !r.form.loading
    // navigation happens exactly on confirmation, to the address of the submitted id
    ensures r.navigatedTo.Some? <==> r.submitted.Some? && ledger(r.submitted.value) == Confirmed
    ensures r.navigatedTo.Some? ==>
      r.navigatedTo.value == ClassPage(classAddress(r.submitted.value.teacher, r.submitted.value.classId))
    ensures r.submitted.Some? && ledger(r.submitted.value) == Confirmed ==> r.form.error == ""
    ensures r.submitted.Some? && ledger(r.submitted.value).Rejected? ==>
      var e := ledger(r.submitted.value).thrown;
      && (e.Raised? && e.message.Some? && e.message.value != "" ==> r.form.error == e.message.value)
      && (e.Raised? && (e.message.None? || e.message.value == "") ==> r.form.error == FallbackText)
      && (e.Nullish? ==> r.form.error == "")
    ensures r.form.classId == form.classId && r.form.name == form.name
  {
    if !program || wallet.None? then Run(form, None, None)
    else
      match Validate(form)
      case Some(msg) => Run(form.(error := msg), None, None)
      case None =>
        var id := Trim(form.classId);
        var req := Request(wallet.value, id, Trim(form.name));
        var busy := form.(loading := true, error := "");
        match ledger(req)
        case Confirmed =>
          Run(busy.(loading := false), Some(req), Some(ClassPage(classAddress(wallet.value, id))))
        case Rejected(e) =>
          Run(busy.(loading := false, error := MessageOr(e, FallbackText).GetOr("")), Some(req), None)
  }

  /** A blank id is reported first, however long the id or the name are. */
  lemma BlankIdReportedFirst(program: bool, wallet: Option<Key>, form: Form, ledger: Request -> Outcome,
                             classAddress: ClassDeriver)
    requires program && wallet.Some? && AllWhitespace(form.classId)
    ensures HandleCreate(program, wallet, form, ledger, classAddress).form.error == MissingIdText
  {
  }

  /**
   * The id bound is applied before trimming: an id of at most 16 units padded
   * with whitespace past 16 is rejected, though its trimmed form would fit.
   */
  lemma PaddedIdRejected(program: bool, wallet: Option<Key>, id: string, pad: string, form: Form,
                         ledger: Request -> Outcome, classAddress: ClassDeriver)
    requires program && wallet.Some?
    requires id != [] && !IsWhitespace(id[0]) && !IsWhitespace(id[|id| - 1])
    requires AllWhitespace(pad) && Utf16Length(id) + |pad| > ClassIdLimit
    requires form.classId == id + pad
    ensures Trim(form.classId) == id
    ensures HandleCreate(program, wallet, form, ledger, classAddress) == Run(form.(error := IdTooLongText), None, None)
  {
    PaddedIdInvalid(id, pad, form);
  }

  lemma PaddedIdInvalid(id: string, pad: string, form: Form)
    requires id != [] && !IsWhitespace(id[0]) && !IsWhitespace(id[|id| - 1])
    requires AllWhitespace(pad) && Utf16Length(id) + |pad| > ClassIdLimit
    requires form.classId == id + pad
    ensures Trim(form.classId) == id
    ensures Validate(form) == Some(IdTooLongText)
  {
    TrimPadded(id, pad);
    Utf16LengthPadded(id, pad);
    assert form.classId[0] == id[0];
    assert !AllWhitespace(form.classId);
  }

  /**
   * An id that is not blank and fits in 16 code units, with a name that fits
   * in 64, always reaches the ledger with the trimmed id and name.
   */
  lemma ValidFormSubmits(program: bool, wallet: Option<Key>, form: Form, ledger: Request -> Outcome,
                         classAddress: ClassDeriver)
    requires program && wallet.Some?
    requires !AllWhitespace(form.classId) && Utf16Length(form.classId) <= ClassIdLimit
    requires Utf16Length(form.name) <= NameLimit
    ensures HandleCreate(program, wallet, form, ledger, classAddress).submitted
      == Some(Request(wallet.value, Trim(form.classId), Trim(form.name)))
  {
  }

  /** With the button enabled, neither submitted field is blank. */
  lemma EnabledButtonSubmitsNonBlank(program: bool, wallet: Option<Key>, form: Form, ledger: Request -> Outcome,
                                     classAddress: ClassDeriver)
    requires program && wallet.Some? && !SubmitDisabled(form)
    ensures var r := HandleCreate(program, wallet, form, ledger, classAddress);
      r.submitted.Some? ==> r.submitted.value.classId != "" && r.submitted.value.name != ""
  {
  }
}

=== FILE: create_event.dfy ===
/**
 * The create-event form (`src/app/teacher/create/page.tsx`): a name bound,
 * an event id built from the clock in base 36, one `createEvent` transaction,
 * and navigation to the address derived from the id that was submitted.
 */
module CreateEvent {
  import opened Wrappers
  import opened Bytes
  import opened Js
  import opened Collaborators
  import Base36
  import Program

  const NameLimit: nat := 64
  const NameTooLongText := "Event name must be 64 characters or less"
  const FallbackText := "Failed to create event"

  /** The form's state: the name and duration inputs, `loading` and `error`. */
  datatype Form = Form(name: string, duration: int, loading: bool, error: string)

  /** `createEvent(eventId, name, duration)` signed by the authority. */
  datatype Request = Request(authority: Key, eventId: string, name: string, duration: int)

  /** The form after the handler, the transaction submitted and the page navigated to. */
  datatype Run = Run(form: Form, submitted: Option<Request>, navigatedTo: Option<Route>)

  /** `` `evt-${Date.now().toString(36)}` ``. */
  function EventId(nowMs: nat): (id: string)
    ensures |id| > 4 && id[..4] == "evt-"
    ensures forall k :: 4 <= k < |id| ==> Base36.IsDigit(id[k])
  {
    "evt-" + Base36.ToBase36(nowMs)
  }

  /** Reads the timestamp back out of an event id. */
  function ParseEventId(id: string): Option<nat> {
    if |id| >= 4 && id[..4] == "evt-" then Base36.FromBase36(id[4..]) else None
  }

  /** An event id decodes back to the timestamp it was built from. */
  lemma EventIdRoundTrip(nowMs: nat)
    ensures ParseEventId(EventId(nowMs)) == Some(nowMs)
  {
    var id := EventId(nowMs);
    assert id[4..] == Base36.ToBase36(nowMs);
    Base36.FromToBase36(nowMs);
  }

  /** Two different timestamps never produce the same event id. */
  lemma EventIdInjective(t1: nat, t2: nat)
    requires EventId(t1) == EventId(t2)
    ensures t1 == t2
  {
    EventIdRoundTrip(t1);
    EventIdRoundTrip(t2);
  }

  /** The Create Event button is disabled while loading or while the trimmed name is blank. */
  function SubmitDisabled(form: Form): (disabled: bool)
    ensures disabled <==> form.loading || AllWhitespace(form.name)
  {
    TrimEmptyIff(form.name);
    form.loading || Trim(form.name) == ""
  }

  /** `handleCreate`, at clock reading `nowMs`. */
  function HandleCreate(program: bool, wallet: Option<Key>, form: Form, nowMs: nat,
                        ledger: Request -> Outcome, derive: Program.Deriver): (r: Run)
    // without a program or wallet key nothing happens
    ensures !program || wallet.None? ==> r == Run(form, None, None)
    // an over-long name is reported before anything else changes
    ensures program && wallet.Some? && Utf16Length(form.name) > NameLimit ==>
      r == Run(form.(error := NameTooLongText), None, None)
    // otherwise exactly one transaction goes out, with the untrimmed name and a fresh id
    ensures program && wallet.Some? && Utf16Length(form.name) <= NameLimit ==>
      && r.submitted.Some?
      && r.submitted.value.authority == wallet.value
      && r.submitted.value.name == form.name
      && r.submitted.value.duration == form.duration
      && r.submitted.value.eventId == EventId(nowMs)
      && ParseEventId(r.submitted.value.eventId) == Some(nowMs)
      && !r.form.loading
    // navigation happens exactly on confirmation, to the address of the submitted (authority, id)
    ensures r.navigatedTo.Some? <==> r.submitted.Some? && ledger(r.submitted.value) == Confirmed
    ensures r.navigatedTo.Some? ==>
      r.navigatedTo.value == EventPage(Program.EventAddress(derive, r.submitted.value.authority, r.submitted.value.eventId))
    // on rejection the error is the thrown message, or the fallback when it is empty
    ensures r.submitted.Some? && ledger(r.submitted.value).Rejected? ==>
      var e := ledger(r.submitted.value).thrown;
      && (e.Raised? && e.message.Some? && e.message.value != "" ==> r.form.error == e.message.value)
      && (e.Raised? && (e.message.None? || e.message.value == "") ==> r.form.error == FallbackText)
      && (e.Nullish? ==> r.form.error == "")
    ensures r.submitted.Some? && ledger(r.submitted.value) == Confirmed ==> r.form.error == ""
    ensures r.submitted.Some? ==> r.form.name == form.name && r.form.duration == form.duration
  {
    if !program || wallet.None? then Run(form, None, None)
    else if Utf16Length(form.name) > NameLimit then Run(form.(error := NameTooLongText), None, None)
    else
      var id := EventId(nowMs);
      EventIdRoundTrip(nowMs);
      var req := Request(wallet.value, id, form.name, form.duration);
      var busy := form.(loading := true, error := "");
      match ledger(req)
      case Confirmed =>
        Run(busy.(loading := false), Some(req), Some(EventPage(Program.EventAddress(derive, wallet.value, id))))
      case Rejected(e) =>
        Run(busy.(loading := false, error := MessageOr(e, FallbackText).GetOr("")), Some(req), None)
  }

  /** A name accepted by the enabled button is never blank, even though it is submitted untrimmed. */
  lemma EnabledButtonSubmitsNonBlankName(program: bool, wallet: Option<Key>, form: Form, nowMs: nat,
                                         ledger: Request -> Outcome, derive: Program.Deriver)
    requires program && wallet.Some? && !SubmitDisabled(form)
    ensures var r := HandleCreate(program, wallet, form, nowMs, ledger, derive);
      r.submitted.Some? ==> !AllWhitespace(r.submitted.value.name)
  {
  }

  /** The dashboard address is the one `getEventPDA` gives for the wallet and the id built from the clock. */
  lemma NavigatesToCreatedEvent(program: bool, wallet: Option<Key>, form: Form, nowMs: nat,
                                ledger: Request -> Outcome, derive: Program.Deriver)
    requires program && wallet.Some? && Utf16Length(form.name) <= NameLimit
    requires ledger(Request(wallet.value, EventId(nowMs), form.name, form.duration)) == Confirmed
    ensures HandleCreate(program, wallet, form, nowMs, ledger, derive).navigatedTo
      == Some(EventPage(derive(Program.EventSeeds(wallet.value, EventId(nowMs)), Program.ProgramId)))
  {
  }
}

=== FILE: event_list.dfy ===
/**
 * The teacher's event list (`src/app/teacher/main/page.tsx`): the wallet's
 * event accounts, times scaled from on-chain seconds to milliseconds, newest
 * start first.
 */
module EventList {
  import opened Wrappers
  import opened Bytes
  import opened AccountQuery
  import opened StableSort
  import opened ListPage

  /** The decoded on-chain event account; times are unix seconds. */
  datatype EventAccount = EventAccount(authority: Key, eventId: string, name: string,
                                       startTime: int, endTime: int, attendeeCount: int)

  /** A row of the list; times are milliseconds. */
  datatype TeacherEvent = TeacherEvent(pda: Key, name: string, eventId: string,
                                       startTime: int, endTime: int, attendeeCount: int)

  const FallbackText: string := "Failed to load events"

  /** The row shows the fetched account's fields, its times multiplied by 1000. */
  predicate ScaledFrom(row: TeacherEvent, acc: Fetched<EventAccount>) {
    && row.pda == acc.publicKey && row.name == acc.account.name && row.eventId == acc.account.eventId
    && row.startTime == 1000 * acc.account.startTime && row.endTime == 1000 * acc.account.endTime
    && row.attendeeCount == acc.account.attendeeCount
  }

  /** The `accounts.map` callback. */
  function ToRow(acc: Fetched<EventAccount>): (row: TeacherEvent)
    ensures ScaledFrom(row, acc)
  {
    TeacherEvent(acc.publicKey, acc.account.name, acc.account.eventId,
                 acc.account.startTime * 1000, acc.account.endTime * 1000, acc.account.attendeeCount)
  }

  function StartTime(row: TeacherEvent): int {
    row.startTime
  }

  /** `fetchEvents`. */
  function FetchEvents(program: bool, wallet: Option<Key>, discriminator: Discriminator,
                        prior: ListState<TeacherEvent>,
                       query: Query<EventAccount>): (r: Listing<TeacherEvent>)
    ensures !program || wallet.None? ==> r == Listing(prior, None)
    ensures program && wallet.Some? ==> r.queried == Some(OwnedBy(discriminator, wallet.value)) && !r.state.loading
    ensures r.queried.Some? && query(r.queried.value).Accounts? ==>
      |r.state.rows| == |query(r.queried.value).items| && r.state.error == ""
    ensures r.queried.Some? && query(r.queried.value).QueryFailed? ==> r.state.rows == prior.rows
    ensures r.queried.Some? && query(r.queried.value).QueryFailed? && query(r.queried.value).thrown.Raised? ==>
      var m := query(r.queried.value).thrown.message;
      r.state.error == (if m.Some? && m.value != "" then m.value else FallbackText)
  {
    Refresh(program, wallet, discriminator, prior, query, ToRow, StartTime, FallbackText)
  }

  /**
   * A successful fetch shows exactly the fetched events, each once (as many
   * times as fetched), every row the fetched account with its times
   * multiplied by 1000, the newest start first.
   */
  lemma FetchedRows(wallet: Key, discriminator: Discriminator, prior: ListState<TeacherEvent>,
                    query: Query<EventAccount>)
    requires query(OwnedBy(discriminator, wallet)).Accounts?
    ensures var xs := query(OwnedBy(discriminator, wallet)).items;
      var rows := FetchEvents(true, Some(wallet), discriminator, prior, query).state.rows;
      && |rows| == |xs|
      && multiset(rows) == multiset(MapRows(xs, ToRow))
      && (forall i, j :: 0 <= i < j < |rows| ==> rows[i].startTime >= rows[j].startTime)
      && (forall i :: 0 <= i < |rows| ==> exists k :: 0 <= k < |xs| && ScaledFrom(rows[i], xs[k]))
  {
    var xs := query(OwnedBy(discriminator, wallet)).items;
    var mapped := MapRows(xs, ToRow);
    var rows := FetchEvents(true, Some(wallet), discriminator, prior, query).state.rows;
    assert SortedDesc(rows, StartTime);
    forall i, j | 0 <= i < j < |rows| ensures rows[i].startTime >= rows[j].startTime {
      assert StartTime(rows[i]) >= StartTime(rows[j]);
    }
    forall i | 0 <= i < |rows|
      ensures exists k :: 0 <= k < |xs| && ScaledFrom(rows[i], xs[k])
    {
      MultisetMember(rows[i], rows, mapped);
      var k :| 0 <= k < |mapped| && mapped[k] == rows[i];
      assert rows[i] == ToRow(xs[k]);
    }
  }

  /** Events starting at the same second keep the order the query returned them in. */
  lemma SameStartKeepsOrder(wallet: Key, discriminator: Discriminator, prior: ListState<TeacherEvent>,
                            query: Query<EventAccount>, ms: int)
    requires query(OwnedBy(discriminator, wallet)).Accounts?
    ensures var xs := query(OwnedBy(discriminator, wallet)).items;
      WithKey(FetchEvents(true, Some(wallet), discriminator, prior, query).state.rows, StartTime, ms)
        == WithKey(MapRows(xs, ToRow), StartTime, ms)
  {
    SortDescStable(MapRows(query(OwnedBy(discriminator, wallet)).items, ToRow), StartTime, ms);
  }
}

=== FILE: js.dfy ===
/**
 * The pieces of JavaScript runtime behaviour the pages rely on: truthiness of
 * query parameters, `String.prototype.trim`, `.length` (UTF-16 code units),
 * `String.prototype.includes`, and reading `.message` off a thrown value.
 */
module Js {
  import opened Wrappers

  // ---------------------------------------------------------------------------
  // Truthiness
  // ---------------------------------------------------------------------------

  /** `if (p)` for a `string | null` value: null and "" are falsy. */
  predicate Truthy(p: Option<string>) {
    p.Some? && p.value != ""
  }

  // ---------------------------------------------------------------------------
  // trim
  // ---------------------------------------------------------------------------

  /**
   * The code points `trim` strips: ECMAScript WhiteSpace (TAB, VT, FF, SPACE,
   * NBSP, ZWNBSP and the Zs category) and LineTerminator (LF, CR, LS, PS).
   */
  predicate IsWhitespace(c: char) {
    var n := c as int;
    n == 0x09 || n == 0x0A || n == 0x0B || n == 0x0C || n == 0x0D || n == 0x20
    || n == 0xA0 || n == 0x1680 || (0x2000 <= n <= 0x200A)
    || n == 0x2028 || n == 0x2029 || n == 0x202F || n == 0x205F
    || n == 0x3000 || n == 0xFEFF
  }

  ghost predicate AllWhitespace(s: string) {
    forall k :: 0 <= k < |s| ==> IsWhitespace(s[k])
  }

  /** Number of whitespace characters at the start of `s`. */
  function LeadingSpace(s: string): (n: nat)
    ensures n <= |s|
    ensures AllWhitespace(s[..n])
    ensures n < |s| ==> !IsWhitespace(s[n])
  {
    if |s| > 0 && IsWhitespace(s[0]) then
      var m := LeadingSpace(s[1..]);
      assert s[1..][..m] == s[1..m + 1];
      1 + m
    else
      0
  }

  /** Number of whitespace characters at the end of `s`. */
  function TrailingSpace(s: string): (n: nat)
    ensures n <= |s|
    ensures AllWhitespace(s[|s| - n..])
    ensures n < |s| ==> !IsWhitespace(s[|s| - 1 - n])
  {
    if |s| > 0 && IsWhitespace(s[|s| - 1]) then
      var t := s[..|s| - 1];
      var m := TrailingSpace(t);
      assert t[|t| - m..] == s[|s| - 1 - m..|s| - 1];
      1 + m
    else
      0
  }

  /**
   * `r` is `s` with a whitespace-only prefix and suffix removed, and `r` itself
   * neither starts nor ends with whitespace: what `trim` promises.
   */
  ghost predicate TrimmedFrom(r: string, s: string) {
    exists i, j :: TrimmedAt(r, s, i, j)
  }

  /** `r` is `s[i..j]`, and the parts cut away are whitespace only. */
  ghost predicate TrimmedAt(r: string, s: string, i: int, j: int) {
    && 0 <= i <= j <= |s| && r == s[i..j]
    && AllWhitespace(s[..i]) && AllWhitespace(s[j..])
    && (r != [] ==> !IsWhitespace(r[0]) && !IsWhitespace(r[|r| - 1]))
  }

  /** `s.trim()`. */
  function Trim(s: string): (r: string)
    ensures TrimmedFrom(r, s)
    ensures |r| <= |s|
  {
    var i := LeadingSpace(s);
    var t := s[i..];
    var n := TrailingSpace(t);
    var j := |s| - n;
    assert t[..|t| - n] == s[i..j];
    assert t[|t| - n..] == s[j..];
    if i == |s| then
      assert s[j..] == [];
      assert TrimmedAt(s[i..j], s, i, j);
      s[i..j]
    else
      assert !IsWhitespace(s[i]);
      assert TrimmedAt(s[i..j], s, i, j);
      s[i..j]
  }

  /** The trimmed string is empty exactly when the input is all whitespace. */
  lemma TrimEmptyIff(s: string)
    ensures Trim(s) == [] <==> AllWhitespace(s)
  {
    var r := Trim(s);
    var i, j :| TrimmedAt(r, s, i, j);
    if r == [] {
      forall k | 0 <= k < |s| ensures IsWhitespace(s[k]) {
        if k < i {
          assert s[..i][k] == s[k];
        } else {
          assert s[j..][k - j] == s[k];
        }
      }
    } else {
      assert s[i] == r[0];
    }
  }

  /** `trim` has only one possible result: any two trimmings of `s` agree. */
  lemma TrimmedAtUnique(r1: string, r2: string, s: string, i1: int, j1: int, i2: int, j2: int)
    requires TrimmedAt(r1, s, i1, j1) && TrimmedAt(r2, s, i2, j2)
    ensures r1 == r2
  {
  }

  /** Trailing whitespace added to an already-trimmed string is exactly what `trim` removes. */
  lemma TrimPadded(x: string, pad: string)
    requires x != [] && !IsWhitespace(x[0]) && !IsWhitespace(x[|x| - 1])
    requires AllWhitespace(pad)
    ensures Trim(x + pad) == x
  {
    var s := x + pad;
    assert s[0..|x|] == x && s[|x|..] == pad && s[..0] == [];
    assert TrimmedAt(x, s, 0, |x|);
    var i, j :| TrimmedAt(Trim(s), s, i, j);
    TrimmedAtUnique(x, Trim(s), s, 0, |x|, i, j);
  }

  // ---------------------------------------------------------------------------
  // .length
  // ---------------------------------------------------------------------------

  /** Code units one character takes in UTF-16: two for a supplementary character. */
  function Utf16Units(c: char): nat {
    if c as int >= 0x10000 then 2 else 1
  }

  /** `s.length`: the UTF-16 code-unit count, not the character count. */
  function Utf16Length(s: string): (n: nat)
    ensures |s| <= n <= 2 * |s|
  {
    if s == [] then 0 else Utf16Units(s[0]) + Utf16Length(s[1..])
  }

  lemma {:induction false} Utf16LengthAppend(a: string, b: string)
    ensures Utf16Length(a + b) == Utf16Length(a) + Utf16Length(b)
  {
    if a == [] {
      assert a + b == b;
    } else {
      assert (a + b)[1..] == a[1..] + b;
      Utf16LengthAppend(a[1..], b);
    }
  }

  /** Trimming never lengthens a string, in `.length` terms. */
  lemma TrimUtf16Shorter(s: string)
    ensures Utf16Length(Trim(s)) <= Utf16Length(s)
  {
    var r := Trim(s);
    var i, j :| TrimmedAt(r, s, i, j);
    assert s == s[..i] + (s[i..j] + s[j..]);
    Utf16LengthAppend(s[..i], s[i..j] + s[j..]);
    Utf16LengthAppend(s[i..j], s[j..]);
  }

  /** For text made of Basic Multilingual Plane characters, `.length` is the character count. */
  lemma {:induction false} Utf16LengthBmp(s: string)
    requires forall k :: 0 <= k < |s| ==> s[k] as int < 0x10000
    ensures Utf16Length(s) == |s|
  {
    if s != [] {
      Utf16LengthBmp(s[1..]);
    }
  }

  /** Whitespace padding adds one code unit per character: every whitespace character is in the BMP. */
  lemma Utf16LengthPadded(x: string, pad: string)
    requires AllWhitespace(pad)
    ensures Utf16Length(x + pad) == Utf16Length(x) + |pad|
  {
    assert forall k :: 0 <= k < |pad| ==> IsWhitespace(pad[k]);
    Utf16LengthBmp(pad);
    Utf16LengthAppend(x, pad);
  }

  // ---------------------------------------------------------------------------
  // includes
  // ---------------------------------------------------------------------------

  /** `pat` occurs in `s` at some position. */
  ghost predicate Occurs(pat: string, s: string) {
    exists i :: OccursAt(pat, s, i)
  }

  ghost predicate OccursAt(pat: string, s: string, i: int) {
    0 <= i && i + |pat| <= |s| && s[i..i + |pat|] == pat
  }

  /** Every character of an occurring pattern is in the text; a pattern holding a character the text lacks does not occur. */
  lemma OccursHasChar(pat: string, s: string, k: nat)
    requires k < |pat|
    ensures Occurs(pat, s) ==> pat[k] in s
  {
  }

  /** `s.includes(pat)`: a case-sensitive substring test. */
  function Includes(s: string, pat: string): (b: bool)
    ensures b <==> Occurs(pat, s)
  {
    if pat <= s then
      assert OccursAt(pat, s, 0);
      true
    else if s == [] then
      false
    else
      OccursShift(pat, s);
      Includes(s[1..], pat)
  }

  /** Away from position 0, an occurrence in `s` is an occurrence in its tail. */
  lemma OccursShift(pat: string, s: string)
    requires s != [] && !(pat <= s)
    ensures Occurs(pat, s) <==> Occurs(pat, s[1..])
  {
    if Occurs(pat, s[1..]) {
      var i :| OccursAt(pat, s[1..], i);
      assert s[i + 1..i + 1 + |pat|] == s[1..][i..i + |pat|];
      assert OccursAt(pat, s, i + 1);
    }
    if Occurs(pat, s) {
      var i :| OccursAt(pat, s, i);
      assert i != 0;
      assert s[i..i + |pat|] == s[1..][i - 1..i - 1 + |pat|];
      assert OccursAt(pat, s[1..], i - 1);
    }
  }

  // ---------------------------------------------------------------------------
  // Thrown values
  // ---------------------------------------------------------------------------

  /**
   * A value caught by `catch (e)`: `null`/`undefined`, or an object whose
   * `message` property is a string or absent.
   */
  datatype Thrown = Nullish | Raised(message: Option<string>)

  /** `e?.message ?? ""`. */
  function MessageOrEmpty(e: Thrown): (m: string)
    ensures e.Raised? && e.message.Some? ==> m == e.message.value
    ensures e.Nullish? || e.message.None? ==> m == ""
  {
    match e
    case Nullish => ""
    case Raised(msg) => msg.GetOr("")
  }

  /**
   * `e.message || fallback`. `None` when `e` is nullish: reading `.message`
   * then throws a TypeError out of the `catch` block itself.
   */
  function MessageOr(e: Thrown, fallback: string): (m: Option<string>)
    ensures m.None? <==> e.Nullish?
    ensures e.Raised? && e.message.Some? && e.message.value != "" ==> m == Some(e.message.value)
    ensures e.Raised? && (e.message.None? || e.message.value == "") ==> m == Some(fallback)
  {
    match e
    case Nullish => None
    case Raised(msg) =>
      if msg.Some? && msg.value != "" then Some(msg.value) else Some(fallback)
  }
}

=== FILE: legacy_checkin.dfy ===
/**
 * The event-only check-in page (`src/app/student/page.tsx`): no names, no
 * class sessions, no mint. It classifies failures in the same order as
 * `StudentPageClient` but with its own texts, and reads `e.message` without
 * guarding against a nullish thrown value.
 */
module LegacyCheckIn {
  import opened Wrappers
  import opened Bytes
  import opened Js
  import opened Collaborators
  import opened CheckInErrors
  import StudentCheckIn

  /** `checkIn()` with the attendee and event accounts: no name arguments. */
  datatype Request = CheckIn(attendee: Key, event: Key)

  datatype Run = Run(state: PageState, submitted: Option<Request>)

  /**
   * The error state for a value thrown inside the `try`. A nullish value makes
   * `e.message` itself throw after status became "error", so the error text
   * stays the "" set before the `try`.
   */
  function Rejection(e: Thrown): (s: PageState)
    ensures s.status == Errored
    ensures e.Nullish? ==> s.error == ""
    ensures e.Raised? ==> s.error == LegacyText(Classify(MessageOrEmpty(e)))
  {
    match MessageOr(e, "")
    case None => PageState(Errored, "")
    case Some(msg) => PageState(Errored, LegacyText(Classify(msg)))
  }

  /** `handleCheckIn`. */
  function HandleCheckIn(program: bool, wallet: Option<Key>, event: Option<string>, prior: PageState,
                         parse: KeyParser, ledger: Request -> Outcome): (r: Run)
    // without a program, a wallet key or an event parameter nothing changes
    ensures !program || wallet.None? || !Truthy(event) ==> r == Run(prior, None)
    ensures program && wallet.Some? && Truthy(event) ==>
      (r.state.status == Succeeded <==> r.submitted.Some? && ledger(r.submitted.value) == Confirmed)
      && (r.state.status == Succeeded || r.state.status == Errored)
    // the only transaction is a check-in by the wallet on the linked event
    ensures r.submitted.Some? ==>
      Truthy(event) && parse(event.value) == Success(r.submitted.value.event)
      && wallet == Some(r.submitted.value.attendee)
    ensures r.state.status == Succeeded && r.submitted.Some? ==> r.state.error == ""
    ensures r.submitted.Some? && ledger(r.submitted.value).Rejected? ==>
      r.state == Rejection(ledger(r.submitted.value).thrown)
    // an event key that parses is always submitted; one that does not ends with what it threw
    ensures program && wallet.Some? && Truthy(event) && parse(event.value).Success? ==>
      r.submitted == Some(CheckIn(wallet.value, parse(event.value).value))
    ensures program && wallet.Some? && Truthy(event) && parse(event.value).Failure? ==>
      r == Run(Rejection(parse(event.value).error), None)
  {
    if !program || wallet.None? || !Truthy(event) then Run(prior, None)
    else
      match parse(event.value)
      case Failure(e) => Run(Rejection(e), None)
      case Success(k) =>
        var req := CheckIn(wallet.value, k);
        match ledger(req)
        case Confirmed => Run(PageState(Succeeded, ""), Some(req))
        case Rejected(e) => Run(Rejection(e), Some(req))
  }

  /** A thrown error with a missing or empty message always gets the generic text. */
  lemma NoMessageIsGeneric(m: Option<string>)
    requires m.None? || m == Some("")
    ensures Rejection(Raised(m)) == PageState(Errored, "Check-in failed. Please try again.")
  {
  }

  /**
   * The two pages part ways on a nullish thrown value: the newer page shows the
   * generic text, this page leaves the error text empty.
   */
  lemma NullishDiffersBetweenPages()
    ensures Rejection(Nullish) == PageState(Errored, "")
    ensures StudentCheckIn.Rejection(Nullish) == PageState(Errored, "Check-in failed. Please try again.")
  {
  }

  /** For a thrown error object both pages pick the same category; only the wording differs. */
  lemma SameCategoryAsNewerPage(e: Thrown)
    requires e.Raised?
    ensures exists k :: Rejection(e).error == LegacyText(k) && StudentCheckIn.Rejection(e).error == ClientText(k)
  {
    var k := Classify(MessageOrEmpty(e));
    assert Rejection(e).error == LegacyText(k) && StudentCheckIn.Rejection(e).error == ClientText(k);
  }

  // ---------------------------------------------------------------------------
  // What the page renders
  // ---------------------------------------------------------------------------

  datatype View =
    | Landing
    | Screen(checkInButton: bool, spinner: bool, success: bool, errorPanel: Option<string>, connectPrompt: bool)

  function Render(wallet: Option<Key>, event: Option<string>, state: PageState): (v: View)
    ensures v.Landing? <==> !Truthy(event)
    ensures v.Screen? ==> (v.connectPrompt <==> wallet.None?)
    // the button needs a wallet and an idle state; each status has its own panel
    ensures v.Screen? ==> (v.checkInButton <==> wallet.Some? && state.status == Idle)
    ensures v.Screen? ==> (v.spinner <==> state.status == Loading) && (v.success <==> state.status == Succeeded)
    ensures v.Screen? ==> (v.errorPanel.Some? <==> state.status == Errored)
    ensures v.Screen? && v.errorPanel.Some? ==> v.errorPanel.value == state.error
    ensures v.Screen? ==>
      (if v.checkInButton then 1 else 0) + (if v.spinner then 1 else 0) + (if v.success then 1 else 0)
      + (if v.errorPanel.Some? then 1 else 0) <= 1
  {
    if !Truthy(event) then Landing
    else Screen(
      wallet.Some? && state.status == Idle,
      state.status == Loading,
      state.status == Succeeded,
      if state.status == Errored then Some(state.error) else None,
      wallet.None?)
  }

  /** Try Again resets to idle with no error, which brings back the button. */
  lemma TryAgainShowsButton(wallet: Option<Key>, event: Option<string>, state: PageState)
    requires wallet.Some? && Truthy(event)
    ensures Render(wallet, event, TryAgain(state)) == Screen(true, false, false, None, false)
  {
  }

  /** After a run with a wallet and an event the screen shows the success panel or the error text, never the button. */
  lemma RunShowsOutcome(program: bool, wallet: Option<Key>, event: Option<string>, prior: PageState,
                        parse: KeyParser, ledger: Request -> Outcome)
    requires program && wallet.Some? && Truthy(event)
    ensures var r := HandleCheckIn(program, wallet, event, prior, parse, ledger);
      Render(wallet, event, r.state)
        == if r.state.status == Succeeded then Screen(false, false, true, None, false)
           else Screen(false, false, false, Some(r.state.error), false)
  {
  }
}

=== FILE: list_page.dfy ===
/**
 * What the two teacher list pages share: the refresh handler (`fetchEvents` /
 * `fetchClasses`) and the display precedence of the `content` memo. A page
 * is given by how it turns a fetched account into a row, which row field it
 * sorts on, and its fallback error text.
 */
module ListPage {
  import opened Wrappers
  import opened Bytes
  import opened Js
  import opened AccountQuery
  import opened StableSort

  /** One entry of `account.X.all(...)`: the account's address and its decoded fields. */
  datatype Fetched<A> = Fetched(publicKey: Key, account: A)

  /** Awaiting the query: the decoded accounts, or the promise rejects. */
  datatype QueryOutcome<A> = Accounts(items: seq<Fetched<A>>) | QueryFailed(thrown: Thrown)

  /** The page's `rows`, `loading` and `error` state. */
  datatype ListState<R> = ListState(rows: seq<R>, loading: bool, error: string)

  /** The state after a refresh, and the filter list it queried with, if any. */
  datatype Listing<R> = Listing(state: ListState<R>, queried: Option<seq<Memcmp>>)

  /** `getProgramAccounts` with a filter list: what the node answers. */
  type Query<A> = seq<Memcmp> -> QueryOutcome<A>

  /** `accounts.map(...)`: one row per fetched account, in query order. */
  function MapRows<A, R>(xs: seq<Fetched<A>>, toRow: Fetched<A> -> R): (rows: seq<R>)
    ensures |rows| == |xs|
    ensures forall k :: 0 <= k < |xs| ==> rows[k] == toRow(xs[k])
  {
    seq(|xs|, k requires 0 <= k < |xs| => toRow(xs[k]))
  }

  /**
   * The refresh handler of a page listing accounts of type `discriminator`.
   * It returns at once without a program or a wallet key; otherwise it clears
   * the error, queries the accounts of that type the wallet owns, and
   * either shows the mapped rows newest first or keeps the old rows and sets
   * the error. A nullish thrown value makes `e.message` throw inside the
   * `catch`, so the error stays the "" set before the query. Loading always
   * ends false.
   */
  function Refresh<A, R>(program: bool, wallet: Option<Key>, discriminator: Discriminator, prior: ListState<R>,
                         query: Query<A>, toRow: Fetched<A> -> R,
                         key: R -> int, fallback: string): (r: Listing<R>)
    ensures !program || wallet.None? ==> r == Listing(prior, None)
    ensures program && wallet.Some? ==>
      r.queried == Some(OwnedBy(discriminator, wallet.value)) && !r.state.loading
    ensures r.queried.Some? && query(r.queried.value).Accounts? ==>
      var xs := query(r.queried.value).items;
      r.state.error == "" && |r.state.rows| == |xs|
      && multiset(r.state.rows) == multiset(MapRows(xs, toRow))
      && SortedDesc(r.state.rows, key)
    ensures r.queried.Some? && query(r.queried.value).QueryFailed? ==>
      var e := query(r.queried.value).thrown;
      r.state.rows == prior.rows
      && (e.Nullish? ==> r.state.error == "")
      && (e.Raised? ==> Some(r.state.error) == MessageOr(e, fallback))
  {
    if !program || wallet.None? then Listing(prior, None)
    else
      var f := OwnedBy(discriminator, wallet.value);
      match query(f)
      case Accounts(xs) => Listing(ListState(SortDesc(MapRows(xs, toRow), key), false, ""), Some(f))
      case QueryFailed(e) => Listing(ListState(prior.rows, false, MessageOr(e, fallback).GetOr("")), Some(f))
  }

  // ---------------------------------------------------------------------------
  // What the page renders
  // ---------------------------------------------------------------------------

  /** The alternatives of the `content` memo. */
  datatype Content<R> =
    | ConnectWallet
    | LoadingNotice
    | ErrorNotice(text: string)
    | EmptyNotice
    | RowList(rows: seq<R>)

  /** First match: no wallet, then loading, then a non-empty error, then no rows, else the rows. */
  function Show<R>(wallet: Option<Key>, s: ListState<R>): (c: Content<R>)
    ensures c.ConnectWallet? <==> wallet.None?
    ensures c.LoadingNotice? <==> wallet.Some? && s.loading
    ensures c.ErrorNotice? <==> wallet.Some? && !s.loading && s.error != ""
    ensures c.EmptyNotice? <==> wallet.Some? && !s.loading && s.error == "" && s.rows == []
    ensures c.RowList? <==> wallet.Some? && !s.loading && s.error == "" && s.rows != []
    ensures c.ErrorNotice? ==> c.text == s.error
    ensures c.RowList? ==> c.rows == s.rows
  {
    if wallet.None? then ConnectWallet
    else if s.loading then LoadingNotice
    else if Truthy(Some(s.error)) then ErrorNotice(s.error)
    else if |s.rows| == 0 then EmptyNotice
    else RowList(s.rows)
  }

  /**
   * After a refresh with a program and a wallet the page never stays on the
   * loading notice: it lists the fetched rows (or says there are none), and a
   * thrown error object always yields an error notice, since the fallback
   * stands in for a missing message.
   */
  lemma RefreshShows<A, R>(wallet: Key, discriminator: Discriminator, prior: ListState<R>, query: Query<A>,
                           toRow: Fetched<A> -> R, key: R -> int, fallback: string)
    requires fallback != ""
    ensures var r := Refresh(true, Some(wallet), discriminator, prior, query, toRow, key, fallback);
      var c := Show(Some(wallet), r.state);
      var q := query(OwnedBy(discriminator, wallet));
      && !c.LoadingNotice?
      && (q.Accounts? && q.items == [] ==> c == EmptyNotice)
      && (q.Accounts? && q.items != [] ==> c == RowList(r.state.rows))
      && (q.QueryFailed? && q.thrown.Raised? ==> c.ErrorNotice? && c.text != "")
      && (q.QueryFailed? && q.thrown.Nullish? ==> (c == EmptyNotice || c == RowList(prior.rows)))
  {
  }

  // ---------------------------------------------------------------------------
  // The query against a store of raw accounts
  // ---------------------------------------------------------------------------

  /** The query result an honest node returns: the matching accounts, decoded. */
  function Decoded<A>(raws: seq<Raw>, decode: seq<byte> -> A): (xs: seq<Fetched<A>>)
    ensures |xs| == |raws|
    ensures forall k :: 0 <= k < |raws| ==> xs[k] == Fetched(raws[k].address, decode(raws[k].data))
  {
    seq(|raws|, k requires 0 <= k < |raws| => Fetched(raws[k].address, decode(raws[k].data)))
  }

  /** The node answers every filter list from `store`. */
  ghost predicate AnswersFrom<A>(query: Query<A>, store: seq<Raw>, decode: seq<byte> -> A) {
    forall f :: query(f) == Accounts(Decoded(Select(store, f), decode))
  }

  /** The row an account of the store turns into. */
  function RowOf<A, R>(raw: Raw, decode: seq<byte> -> A, toRow: Fetched<A> -> R): R {
    toRow(Fetched(raw.address, decode(raw.data)))
  }

  lemma MultisetMember<T>(x: T, a: seq<T>, b: seq<T>)
    requires multiset(a) == multiset(b) && x in a
    ensures x in b
  {
    assert x in multiset(a);
  }

  /** The row is that of some account of the selection. */
  ghost predicate RowOfSome<A, R>(row: R, sel: seq<Raw>, decode: seq<byte> -> A, toRow: Fetched<A> -> R) {
    exists k :: 0 <= k < |sel| && row == RowOf(sel[k], decode, toRow)
  }

  /** Rows that permute the rows of a selection come from it, and miss none of it. */
  lemma RowsOfSelection<A, R>(rows: seq<R>, sel: seq<Raw>, decode: seq<byte> -> A, toRow: Fetched<A> -> R)
    requires multiset(rows) == multiset(MapRows(Decoded(sel, decode), toRow))
    ensures forall i :: 0 <= i < |rows| ==> RowOfSome(rows[i], sel, decode, toRow)
    ensures forall k :: 0 <= k < |sel| ==> RowOf(sel[k], decode, toRow) in rows
  {
    var mapped := MapRows(Decoded(sel, decode), toRow);
    forall i | 0 <= i < |rows| ensures RowOfSome(rows[i], sel, decode, toRow) {
      MultisetMember(rows[i], rows, mapped);
      var k :| 0 <= k < |mapped| && mapped[k] == rows[i];
      assert mapped[k] == RowOf(sel[k], decode, toRow);
    }
    forall k | 0 <= k < |sel| ensures RowOf(sel[k], decode, toRow) in rows {
      assert mapped[k] == RowOf(sel[k], decode, toRow);
      MultisetMember(mapped[k], mapped, rows);
    }
  }

  /** Against a store, a refresh shows the rows of the accounts its filter list selects. */
  lemma RefreshSelects<A, R>(wallet: Key, discriminator: Discriminator, prior: ListState<R>, query: Query<A>,
                             store: seq<Raw>, decode: seq<byte> -> A,
                             toRow: Fetched<A> -> R, key: R -> int, fallback: string)
    requires AnswersFrom(query, store, decode)
    ensures multiset(Refresh(true, Some(wallet), discriminator, prior, query, toRow, key, fallback).state.rows)
      == multiset(MapRows(Decoded(Select(store, OwnedBy(discriminator, wallet)), decode), toRow))
  {
    assert query(OwnedBy(discriminator, wallet)) == Accounts(Decoded(Select(store, OwnedBy(discriminator, wallet)), decode));
  }

  /**
   * Against a store, a refresh lists exactly the wallet's accounts of the
   * page's type: every row comes from an account of that type whose owner
   * field is the wallet, and every such account yields a row. Accounts of
   * other types that the wallet owns are not among the sources.
   */
  lemma RefreshListsOwned<A, R>(wallet: Key, discriminator: Discriminator, prior: ListState<R>, query: Query<A>,
                                store: seq<Raw>, decode: seq<byte> -> A,
                                toRow: Fetched<A> -> R, key: R -> int, fallback: string)
    requires AnswersFrom(query, store, decode)
    ensures var rows := Refresh(true, Some(wallet), discriminator, prior, query, toRow, key, fallback).state.rows;
      && (forall i :: 0 <= i < |rows| ==>
            exists raw :: (raw in store && IsOwnedOfType(raw.data, discriminator, wallet)
                           && rows[i] == RowOf(raw, decode, toRow)))
      && (forall raw :: raw in store && IsOwnedOfType(raw.data, discriminator, wallet) ==>
            RowOf(raw, decode, toRow) in rows)
  {
    var f := OwnedBy(discriminator, wallet);
    var sel := Select(store, f);
    var rows := Refresh(true, Some(wallet), discriminator, prior, query, toRow, key, fallback).state.rows;
    RefreshSelects(wallet, discriminator, prior, query, store, decode, toRow, key, fallback);
    RowsOfSelection(rows, sel, decode, toRow);
    SelectOwned(store, discriminator, wallet);
    forall i | 0 <= i < |rows|
      ensures exists raw :: (raw in store && IsOwnedOfType(raw.data, discriminator, wallet)
                             && rows[i] == RowOf(raw, decode, toRow))
    {
      assert RowOfSome(rows[i], sel, decode, toRow);
      var k :| 0 <= k < |sel| && rows[i] == RowOf(sel[k], decode, toRow);
      assert sel[k] in store && IsOwnedOfType(sel[k].data, discriminator, wallet);
    }
    forall raw | raw in store && IsOwnedOfType(raw.data, discriminator, wallet)
      ensures RowOf(raw, decode, toRow) in rows
    {
      var j :| 0 <= j < |store| && store[j] == raw;
      var k :| 0 <= k < |sel| && sel[k] == raw;
    }
  }

  /**
   * An account of the page's type whose data starts with the wallet's key, as
   * the program lays out the accounts it creates for the signer, is always
   * among the rows a refresh lists.
   */
  lemma CreatedAccountListed<A, R>(wallet: Key, discriminator: Discriminator, prior: ListState<R>, query: Query<A>,
                                   store: seq<Raw>, decode: seq<byte> -> A,
                                   toRow: Fetched<A> -> R, key: R -> int, fallback: string,
                                   address: Key, fields: seq<byte>)
    requires AnswersFrom(query, store, decode)
    requires Raw(address, discriminator + wallet + fields) in store
    ensures RowOf(Raw(address, discriminator + wallet + fields), decode, toRow)
      in Refresh(true, Some(wallet), discriminator, prior, query, toRow, key, fallback).state.rows
  {
    LayoutOwner(discriminator, wallet, fields);
    RefreshListsOwned(wallet, discriminator, prior, query, store, decode, toRow, key, fallback);
  }
}

=== FILE: program.dfy ===
/**
 * Address derivation of `src/lib/program.ts`: the tagged seed lists for event
 * and attendance addresses under the fixed program id. The derivation itself
 * (`PublicKey.findProgramAddressSync`, a hash with a bump search) is a
 * parameter: any function of the seed list and program id.
 */
module Program {
  import opened Wrappers
  import opened Bytes
  import Utf8

  /** `PROGRAM_ID`, as the base58 text `src/lib/program.ts` constructs it from. */
  const ProgramId: string := "81UDr8A4MRvaxWmdPG72fFLMMxfDu634QmyykZj9JCp8"

  type Seeds = seq<seq<byte>>

  /** `findProgramAddressSync(seeds, programId)[0]`, left uninterpreted. */
  type Deriver = (Seeds, string) -> Key

  /** `Buffer.from("event")`. */
  const EventTag: seq<byte> := Utf8.Encode("event")

  /** `Buffer.from("attendance")`. */
  const AttendanceTag: seq<byte> := Utf8.Encode("attendance")

  /** The tags are the ASCII bytes of their words. */
  lemma TagBytes()
    ensures EventTag == [101, 118, 101, 110, 116]
    ensures AttendanceTag == [97, 116, 116, 101, 110, 100, 97, 110, 99, 101]
  {
    EventTagBytes();
    AttendanceTagBytes();
  }

  lemma EventTagBytes()
    ensures EventTag == [101, 118, 101, 110, 116]
  {
  }

  lemma AttendanceTagBytes()
    ensures AttendanceTag == [97, 116, 116, 101, 110, 100, 97, 110, 99, 101]
  {
  }

  /** The seeds `getEventPDA` hands to the derivation. */
  function EventSeeds(authority: Key, eventId: string): (seeds: Seeds)
    ensures |seeds| == 3 && seeds[0] == EventTag && seeds[1] == authority
    ensures Utf8.Decode(seeds[2]) == Some(eventId)
  {
    Utf8.DecodeEncode(eventId);
    [EventTag, authority, Utf8.Encode(eventId)]
  }

  /** The seeds `getAttendancePDA` hands to the derivation. */
  function AttendanceSeeds(event: Key, attendee: Key): (seeds: Seeds)
    ensures |seeds| == 3 && seeds[0] == AttendanceTag && seeds[1] == event && seeds[2] == attendee
  {
    [AttendanceTag, event, attendee]
  }

  /**
   * `getEventPDA(authority, eventId)`: the address derived under the program
   * id from the ASCII bytes of "event", the authority's 32 key bytes and the
   * UTF-8 bytes of the event id.
   */
  function EventAddress(derive: Deriver, authority: Key, eventId: string): (a: Key)
    ensures a == derive([[101, 118, 101, 110, 116], authority, Utf8.Encode(eventId)],
                        "81UDr8A4MRvaxWmdPG72fFLMMxfDu634QmyykZj9JCp8")
  {
    EventTagBytes();
    derive(EventSeeds(authority, eventId), ProgramId)
  }

  /**
   * `getAttendancePDA(event, attendee)`: the address derived under the
   * program id from the ASCII bytes of "attendance", then the event's key
   * bytes, then the attendee's.
   */
  function AttendanceAddress(derive: Deriver, event: Key, attendee: Key): (a: Key)
    ensures a == derive([[97, 116, 116, 101, 110, 100, 97, 110, 99, 101], event, attendee],
                        "81UDr8A4MRvaxWmdPG72fFLMMxfDu634QmyykZj9JCp8")
  {
    AttendanceTagBytes();
    derive(AttendanceSeeds(event, attendee), ProgramId)
  }

  /** The bytes of all seeds laid end to end. */
  function Concat(seeds: Seeds): (b: seq<byte>)
    ensures seeds != [] ==> b == seeds[0] + Concat(seeds[1..])
  {
    if seeds == [] then [] else seeds[0] + Concat(seeds[1..])
  }

  lemma ConcatThree(a: seq<byte>, b: seq<byte>, c: seq<byte>)
    ensures Concat([a, b, c]) == a + b + c
  {
    assert [a, b, c][1..] == [b, c];
    assert [b, c][1..] == [c];
    assert [c][1..] == [];
  }

  /**
   * Equal inputs give equal event addresses. This holds by construction, since
   * the address is a function of its inputs; the substance is in
   * `EventSeedsInjective`: distinct inputs never share seed bytes.
   */
  lemma EventAddressDeterministic(derive: Deriver, a1: Key, id1: string, a2: Key, id2: string)
    requires a1 == a2 && id1 == id2
    ensures EventAddress(derive, a1, id1) == EventAddress(derive, a2, id2)
  {
  }

  /**
   * Equal event and attendee keys give equal attendance addresses. This holds
   * by construction; the substance is in `AttendanceSeedsInjective` and
   * `AttendanceSeedsOrdered`.
   */
  lemma AttendanceAddressDeterministic(derive: Deriver, e1: Key, p1: Key, e2: Key, p2: Key)
    requires e1 == e2 && p1 == p2
    ensures AttendanceAddress(derive, e1, p1) == AttendanceAddress(derive, e2, p2)
  {
  }

  /** An event seed list and an attendance seed list never coincide, nor do their bytes. */
  lemma EventAttendanceSeedsDiffer(authority: Key, eventId: string, event: Key, attendee: Key)
    ensures EventSeeds(authority, eventId) != AttendanceSeeds(event, attendee)
    ensures Concat(EventSeeds(authority, eventId)) != Concat(AttendanceSeeds(event, attendee))
  {
    TagBytes();
    ConcatThree(EventTag, authority, Utf8.Encode(eventId));
    ConcatThree(AttendanceTag, event, attendee);
    assert Concat(EventSeeds(authority, eventId))[0] == 101;
    assert Concat(AttendanceSeeds(event, attendee))[0] == 97;
  }

  /** With 32-byte keys the concatenated event seeds determine the authority and the event id. */
  lemma EventSeedsInjective(a1: Key, id1: string, a2: Key, id2: string)
    requires Concat(EventSeeds(a1, id1)) == Concat(EventSeeds(a2, id2))
    ensures a1 == a2 && id1 == id2
  {
    TagBytes();
    var e1, e2 := Utf8.Encode(id1), Utf8.Encode(id2);
    ConcatThree(EventTag, a1, e1);
    ConcatThree(EventTag, a2, e2);
    var b1, b2 := EventTag + a1 + e1, EventTag + a2 + e2;
    assert b1 == b2;
    assert a1 == b1[5..37];
    assert a2 == b2[5..37];
    assert e1 == b1[37..];
    assert e2 == b2[37..];
    Utf8.EncodeInjective(id1, id2);
  }

  /** The concatenated attendance seeds determine the event and the attendee, in that order. */
  lemma AttendanceSeedsInjective(e1: Key, p1: Key, e2: Key, p2: Key)
    requires Concat(AttendanceSeeds(e1, p1)) == Concat(AttendanceSeeds(e2, p2))
    ensures e1 == e2 && p1 == p2
  {
    TagBytes();
    ConcatThree(AttendanceTag, e1, p1);
    ConcatThree(AttendanceTag, e2, p2);
    var b1, b2 := AttendanceTag + e1 + p1, AttendanceTag + e2 + p2;
    assert e1 == b1[10..42] && e2 == b2[10..42];
    assert p1 == b1[42..] && p2 == b2[42..];
  }

  /** Swapping two distinct keys changes the attendance seeds. */
  lemma AttendanceSeedsOrdered(x: Key, y: Key)
    requires x != y
    ensures Concat(AttendanceSeeds(x, y)) != Concat(AttendanceSeeds(y, x))
  {
    if Concat(AttendanceSeeds(x, y)) == Concat(AttendanceSeeds(y, x)) {
      AttendanceSeedsInjective(x, y, y, x);
    }
  }
}

=== FILE: stable_sort.dfy ===
/**
 * `Array.prototype.sort` with the comparator `(a, b) => key(b) - key(a)`:
 * largest key first, and (the sort being stable) elements with equal keys in
 * their original order. Written as an insertion sort on sequences.
 */
module StableSort {

  ghost predicate SortedDesc<T>(s: seq<T>, key: T -> int) {
    forall i, j :: 0 <= i < j < |s| ==> key(s[i]) >= key(s[j])
  }

  /** The elements of `s` with key `v`, in order. */
  function WithKey<T>(s: seq<T>, key: T -> int, v: int): seq<T> {
    if s == [] then [] else (if key(s[0]) == v then [s[0]] else []) + WithKey(s[1..], key, v)
  }

  /** Puts `x` before the first element whose key is not larger than its own. */
  function Insert<T>(x: T, s: seq<T>, key: T -> int): (r: seq<T>)
    requires SortedDesc(s, key)
    ensures SortedDesc(r, key)
    ensures multiset(r) == multiset(s) + multiset{x}
    ensures |r| == |s| + 1
    ensures r[0] == x || (s != [] && r[0] == s[0])
  {
    if s == [] || key(s[0]) <= key(x) then
      [x] + s
    else
      var t := Insert(x, s[1..], key);
      assert s == [s[0]] + s[1..];
      assert key(s[0]) >= key(t[0]);
      assert forall k :: 0 <= k < |t| ==> key(t[0]) >= key(t[k]);
      [s[0]] + t
  }

  lemma SortedTail<T>(s: seq<T>, key: T -> int)
    requires s != [] && SortedDesc(s, key)
    ensures SortedDesc(s[1..], key)
  {
  }

  /** The stable descending sort. */
  function SortDesc<T>(s: seq<T>, key: T -> int): (r: seq<T>)
    ensures SortedDesc(r, key)
    ensures multiset(r) == multiset(s)
    ensures |r| == |s|
  {
    if s == [] then []
    else
      assert s == [s[0]] + s[1..];
      Insert(s[0], SortDesc(s[1..], key), key)
  }

  lemma {:induction false} InsertKeepsTies<T>(x: T, s: seq<T>, key: T -> int, v: int)
    requires SortedDesc(s, key)
    ensures WithKey(Insert(x, s, key), key, v) == (if key(x) == v then [x] else []) + WithKey(s, key, v)
  {
    if s == [] || key(s[0]) <= key(x) {
      assert Insert(x, s, key) == [x] + s;
      assert ([x] + s)[0] == x && ([x] + s)[1..] == s;
    } else {
      SortedTail(s, key);
      var t := Insert(x, s[1..], key);
      assert Insert(x, s, key) == [s[0]] + t;
      var head := if key(s[0]) == v then [s[0]] else [];
      var mid := if key(x) == v then [x] else [];
      assert ([s[0]] + t)[1..] == t;
      assert WithKey([s[0]] + t, key, v) == head + WithKey(t, key, v);
      assert WithKey(s, key, v) == head + WithKey(s[1..], key, v);
      InsertKeepsTies(x, s[1..], key, v);
      assert WithKey(t, key, v) == mid + WithKey(s[1..], key, v);
      if key(x) == v {
        assert head == [];
      } else {
        assert mid == [];
      }
    }
  }

  /** Stability: for every key value the sort keeps the original order of the elements carrying it. */
  lemma {:induction false} SortDescStable<T>(s: seq<T>, key: T -> int, v: int)
    ensures WithKey(SortDesc(s, key), key, v) == WithKey(s, key, v)
  {
    if s != [] {
      SortDescStable(s[1..], key, v);
      InsertKeepsTies(s[0], SortDesc(s[1..], key), key, v);
    }
  }
}

=== FILE: student_checkin.dfy ===
/**
 * The check-in handler of `StudentPageClient`: validate the two names, pick
 * the event or the class session from the link, submit one transaction, and on
 * confirmation report success and request a proof mint whose outcome is never
 * looked at. A rejected transaction's message is classified into one of four
 * texts.
 */
module StudentCheckIn {
  import opened Wrappers
  import opened Bytes
  import opened Js
  import opened Collaborators
  import opened CheckInErrors

  /** The `event`, `class` and `session` query parameters; `None` when absent. */
  datatype Link = Link(event: Option<string>, klass: Option<string>, session: Option<string>)

  /** What a link asks to check into. */
  datatype Target = ToEvent(event: string) | ToSession(klass: string, session: string) | NoTarget

  /** An `event` parameter wins; otherwise both `class` and `session` are needed. */
  function TargetOf(link: Link): (t: Target)
    ensures t.ToEvent? <==> Truthy(link.event)
    ensures t.ToSession? <==> !Truthy(link.event) && Truthy(link.klass) && Truthy(link.session)
    ensures t.ToEvent? ==> t.event == link.event.value
    ensures t.ToSession? ==> t.klass == link.klass.value && t.session == link.session.value
  {
    if Truthy(link.event) then ToEvent(link.event.value)
    else if Truthy(link.klass) && Truthy(link.session) then ToSession(link.klass.value, link.session.value)
    else NoTarget
  }

  /** The page shows only the landing text instead of the check-in screen. */
  predicate ShowsLanding(link: Link) {
    !Truthy(link.event) && !(Truthy(link.klass) && Truthy(link.session))
  }

  /** The landing text appears exactly for the links the handler would call invalid. */
  lemma LandingIffNoTarget(link: Link)
    ensures ShowsLanding(link) <==> TargetOf(link) == NoTarget
  {
  }

  const NameLimit: nat := 32
  const MissingNameText := "Please enter your first and last name."
  const NameTooLongText := "First name and last name must be 32 characters or less."
  const InvalidLinkText := "Invalid check-in link. Missing event or class/session."

  /** The local name checks, in order: blank after trimming, then too long before trimming. */
  function NameError(firstName: string, lastName: string): (r: Option<string>)
    ensures r == Some(MissingNameText) <==> Trim(firstName) == "" || Trim(lastName) == ""
    ensures r == Some(NameTooLongText) <==>
      Trim(firstName) != "" && Trim(lastName) != ""
      && (Utf16Length(firstName) > NameLimit || Utf16Length(lastName) > NameLimit)
    ensures r.None? <==>
      Trim(firstName) != "" && Trim(lastName) != ""
      && Utf16Length(firstName) <= NameLimit && Utf16Length(lastName) <= NameLimit
    ensures r.None? ==> Utf16Length(Trim(firstName)) <= NameLimit && Utf16Length(Trim(lastName)) <= NameLimit
  {
    TrimUtf16Shorter(firstName);
    TrimUtf16Shorter(lastName);
    if Trim(firstName) == "" || Trim(lastName) == "" then Some(MissingNameText)
    else if Utf16Length(firstName) > NameLimit || Utf16Length(lastName) > NameLimit then Some(NameTooLongText)
    else None
  }

  /** The two transactions: `checkIn(first, last)` on an event, `checkInSession(session, first, last)` on a class. */
  datatype Request =
    | CheckIn(attendee: Key, event: Key, firstName: string, lastName: string)
    | CheckInSession(student: Key, klass: Key, session: string, firstName: string, lastName: string)
  {
    /** The event or class address the request targets. */
    function Parent(): Key {
      match this
      case CheckIn(_, e, _, _) => e
      case CheckInSession(_, c, _, _, _) => c
    }
  }

  /** `mintProofCnft({ leafOwner, classOrEventPda })`. */
  datatype MintRequest = MintRequest(leafOwner: Key, classOrEvent: Key)

  /** The page state after the handler, the transaction it submitted and the mint it requested. */
  datatype Run = Run(state: PageState, submitted: Option<Request>, mint: Option<MintRequest>)

  /**
   * The error state for a value thrown inside the `try`: the classified text
   * of its message, where a nullish value or a missing message reads as "".
   */
  function Rejection(e: Thrown): (s: PageState)
    ensures s.status == Errored
    ensures e.Nullish? || e == Raised(None) ==> s.error == "Check-in failed. Please try again."
    ensures e.Raised? && e.message.Some? ==> s.error == ClientText(Classify(e.message.value))
  {
    PageState(Errored, ClientText(Classify(MessageOrEmpty(e))))
  }

  /**
   * Submit the transaction; once it confirms, request the mint. A rejected
   * mint is caught and only logged, so both mint outcomes end in success.
   */
  function Submit(req: Request, owner: Key, ledger: Request -> Outcome, mint: MintRequest -> Outcome): Run {
    match ledger(req)
    case Confirmed =>
      var m := MintRequest(owner, req.Parent());
      (match mint(m)
       case Confirmed => Run(PageState(Succeeded, ""), Some(req), Some(m))
       case Rejected(_) => Run(PageState(Succeeded, ""), Some(req), Some(m)))
    case Rejected(e) => Run(Rejection(e), Some(req), None)
  }

  /** The handler gets past its early return and its name checks. */
  predicate NamesAccepted(program: bool, wallet: Option<Key>, firstName: string, lastName: string) {
    program && wallet.Some? && NameError(firstName, lastName).None?
  }

  /** `handleCheckIn`. */
  function HandleCheckIn(program: bool, wallet: Option<Key>, link: Link, firstName: string, lastName: string,
                         prior: PageState, parse: KeyParser, ledger: Request -> Outcome,
                         mint: MintRequest -> Outcome): (r: Run)
    // without a program or a wallet key nothing changes
    ensures !program || wallet.None? ==> r == Run(prior, None, None)
    ensures program && wallet.Some? ==> r.state.status == Succeeded || r.state.status == Errored
    // success means a submitted transaction confirmed, and nothing else does
    ensures program && wallet.Some? ==>
      (r.state.status == Succeeded <==> r.submitted.Some? && ledger(r.submitted.value) == Confirmed)
    ensures program && wallet.Some? && r.state.status == Succeeded ==> r.state.error == ""
    // a submitted transaction carries valid, trimmed names and the wallet as signer
    ensures r.submitted.Some? ==>
      && NameError(firstName, lastName).None?
      && r.submitted.value.firstName == Trim(firstName) && r.submitted.value.lastName == Trim(lastName)
      && r.submitted.value.firstName != "" && r.submitted.value.lastName != ""
      && Utf16Length(r.submitted.value.firstName) <= NameLimit
      && Utf16Length(r.submitted.value.lastName) <= NameLimit
    // the transaction goes where the link points
    ensures r.submitted.Some? && r.submitted.value.CheckIn? ==>
      Truthy(link.event) && parse(link.event.value) == Success(r.submitted.value.event)
      && r.submitted.value.attendee == wallet.value
    ensures r.submitted.Some? && r.submitted.value.CheckInSession? ==>
      !Truthy(link.event) && Truthy(link.klass) && Truthy(link.session)
      && parse(link.klass.value) == Success(r.submitted.value.klass)
      && r.submitted.value.session == link.session.value
      && r.submitted.value.student == wallet.value
    // a mint is requested exactly after a confirmed check-in, for the wallet and the checked-in address
    ensures r.mint.Some? <==> program && wallet.Some? && r.state.status == Succeeded
    ensures r.mint.Some? ==>
      r.submitted.Some? && r.mint.value == MintRequest(wallet.value, r.submitted.value.Parent())
    // a rejected transaction shows its classified text
    ensures r.submitted.Some? && ledger(r.submitted.value).Rejected? ==>
      r.state == Rejection(ledger(r.submitted.value).thrown)
    // valid names and a target whose key parses always submit the one transaction
    ensures (NamesAccepted(program, wallet, firstName, lastName) && Truthy(link.event)
             && parse(link.event.value).Success?) ==>
      r.submitted == Some(CheckIn(wallet.value, parse(link.event.value).value, Trim(firstName), Trim(lastName)))
    ensures (NamesAccepted(program, wallet, firstName, lastName) && TargetOf(link).ToSession?
             && parse(link.klass.value).Success?) ==>
      r.submitted == Some(CheckInSession(wallet.value, parse(link.klass.value).value, link.session.value,
                                         Trim(firstName), Trim(lastName)))
    // a key that does not parse ends the handler with the classified text of what it threw
    ensures (NamesAccepted(program, wallet, firstName, lastName) && Truthy(link.event)
             && parse(link.event.value).Failure?) ==>
      r == Run(Rejection(parse(link.event.value).error), None, None)
    ensures (NamesAccepted(program, wallet, firstName, lastName) && TargetOf(link).ToSession?
             && parse(link.klass.value).Failure?) ==>
      r == Run(Rejection(parse(link.klass.value).error), None, None)
  {
    if !program || wallet.None? then Run(prior, None, None)
    else
      match NameError(firstName, lastName)
      case Some(msg) => Run(PageState(Errored, msg), None, None)
      case None =>
        var first, last := Trim(firstName), Trim(lastName);
        match TargetOf(link)
        case ToEvent(e) =>
          (match parse(e)
           case Failure(x) => Run(Rejection(x), None, None)
           case Success(k) => Submit(CheckIn(wallet.value, k, first, last), wallet.value, ledger, mint))
        case ToSession(c, session) =>
          (match parse(c)
           case Failure(x) => Run(Rejection(x), None, None)
           case Success(k) => Submit(CheckInSession(wallet.value, k, session, first, last), wallet.value, ledger, mint))
        case NoTarget => Run(PageState(Errored, InvalidLinkText), None, None)
  }

  /** A failed name check ends the handler with its text; nothing reaches the ledger. */
  lemma NamesCheckedBeforeLedger(program: bool, wallet: Option<Key>, link: Link, firstName: string,
                                 lastName: string, prior: PageState, parse: KeyParser, ledger: Request -> Outcome,
                                 mint: MintRequest -> Outcome)
    requires program && wallet.Some? && NameError(firstName, lastName).Some?
    ensures HandleCheckIn(program, wallet, link, firstName, lastName, prior, parse, ledger, mint)
      == Run(PageState(Errored, NameError(firstName, lastName).value), None, None)
  {
  }

  /** A blank name is reported as blank even when the other name is also too long. */
  lemma BlankReportedBeforeLength(program: bool, wallet: Option<Key>, link: Link, firstName: string,
                                  lastName: string, prior: PageState, parse: KeyParser, ledger: Request -> Outcome,
                                  mint: MintRequest -> Outcome)
    requires program && wallet.Some?
    requires AllWhitespace(firstName) || AllWhitespace(lastName)
    ensures HandleCheckIn(program, wallet, link, firstName, lastName, prior, parse, ledger, mint).state
      == PageState(Errored, MissingNameText)
  {
    TrimEmptyIff(firstName);
    TrimEmptyIff(lastName);
  }

  /**
   * The length bound is applied before trimming: a name that fits once trimmed
   * is still rejected when trailing whitespace takes it past 32 code units.
   */
  lemma PaddedNameRejected(program: bool, wallet: Option<Key>, link: Link, name: string, pad: string,
                           lastName: string, prior: PageState, parse: KeyParser, ledger: Request -> Outcome,
                           mint: MintRequest -> Outcome)
    requires program && wallet.Some?
    requires name != [] && !IsWhitespace(name[0]) && !IsWhitespace(name[|name| - 1])
    requires AllWhitespace(pad) && Utf16Length(name) + |pad| > NameLimit
    requires Trim(lastName) != ""
    ensures Trim(name + pad) == name
    ensures HandleCheckIn(program, wallet, link, name + pad, lastName, prior, parse, ledger, mint)
      == Run(PageState(Errored, NameTooLongText), None, None)
  {
    TrimPadded(name, pad);
    Utf16LengthPadded(name, pad);
  }

  /**
   * The mint's outcome never reaches the page: whatever the mint does, the
   * run is the same, and a confirmed check-in reads as success with no error.
   */
  lemma MintOutcomeIgnored(program: bool, wallet: Option<Key>, link: Link, firstName: string, lastName: string,
                           prior: PageState, parse: KeyParser, ledger: Request -> Outcome,
                           mint1: MintRequest -> Outcome, mint2: MintRequest -> Outcome)
    ensures HandleCheckIn(program, wallet, link, firstName, lastName, prior, parse, ledger, mint1)
      == HandleCheckIn(program, wallet, link, firstName, lastName, prior, parse, ledger, mint2)
    ensures var r := HandleCheckIn(program, wallet, link, firstName, lastName, prior, parse, ledger, mint1);
      r.submitted.Some? && ledger(r.submitted.value) == Confirmed ==>
        r.state == PageState(Succeeded, "") && r.mint.Some?
  {
  }

  /**
   * Names that are not blank and fit in 32 code units, and a link whose key
   * parses, always reach the ledger: the one request goes out with the
   * trimmed names, to the event or class the link names.
   */
  lemma ValidCheckInSubmits(program: bool, wallet: Option<Key>, link: Link, firstName: string, lastName: string,
                            prior: PageState, parse: KeyParser, ledger: Request -> Outcome,
                            mint: MintRequest -> Outcome)
    requires program && wallet.Some?
    requires !AllWhitespace(firstName) && Utf16Length(firstName) <= NameLimit
    requires !AllWhitespace(lastName) && Utf16Length(lastName) <= NameLimit
    requires Truthy(link.event) ==> parse(link.event.value).Success?
    requires !Truthy(link.event) ==> Truthy(link.klass) && Truthy(link.session) && parse(link.klass.value).Success?
    ensures var r := HandleCheckIn(program, wallet, link, firstName, lastName, prior, parse, ledger, mint);
      && r.submitted.Some?
      && r.submitted.value.firstName == Trim(firstName) && r.submitted.value.lastName == Trim(lastName)
      && (Truthy(link.event) ==> r.submitted.value == CheckIn(wallet.value, parse(link.event.value).value,
                                                              Trim(firstName), Trim(lastName)))
      && (!Truthy(link.event) ==> r.submitted.value.Parent() == parse(link.klass.value).value)
  {
    TrimEmptyIff(firstName);
    TrimEmptyIff(lastName);
  }

  /** With an `event` parameter, `class` and `session` make no difference. */
  lemma EventParamWins(program: bool, wallet: Option<Key>, link: Link, klass: Option<string>,
                       session: Option<string>, firstName: string, lastName: string, prior: PageState,
                       parse: KeyParser, ledger: Request -> Outcome, mint: MintRequest -> Outcome)
    requires Truthy(link.event)
    ensures HandleCheckIn(program, wallet, link, firstName, lastName, prior, parse, ledger, mint)
      == HandleCheckIn(program, wallet, Link(link.event, klass, session), firstName, lastName,
                       prior, parse, ledger, mint)
  {
  }

  /** A class link missing either `class` or `session` is an invalid link, and nothing is submitted. */
  lemma IncompleteLinkRejected(program: bool, wallet: Option<Key>, link: Link, firstName: string,
                               lastName: string, prior: PageState, parse: KeyParser, ledger: Request -> Outcome,
                               mint: MintRequest -> Outcome)
    requires program && wallet.Some? && NameError(firstName, lastName).None?
    requires !Truthy(link.event) && (!Truthy(link.klass) || !Truthy(link.session))
    ensures HandleCheckIn(program, wallet, link, firstName, lastName, prior, parse, ledger, mint)
      == Run(PageState(Errored, InvalidLinkText), None, None)
  {
  }

  // ---------------------------------------------------------------------------
  // What the page renders
  // ---------------------------------------------------------------------------

  /** The landing text, or the check-in screen with the panels that are showing. */
  datatype View =
    | Landing
    | Screen(form: bool, spinner: bool, success: bool, errorPanel: Option<string>, connectPrompt: bool)

  function Render(wallet: Option<Key>, link: Link, state: PageState): (v: View)
    ensures v.Landing? <==> ShowsLanding(link)
    ensures v.Screen? ==> (v.connectPrompt <==> wallet.None?)
    // the form needs a wallet and an idle state; each other status has its own panel
    ensures v.Screen? ==> (v.form <==> wallet.Some? && state.status == Idle)
    ensures v.Screen? ==> (v.spinner <==> state.status == Loading) && (v.success <==> state.status == Succeeded)
    ensures v.Screen? ==> (v.errorPanel.Some? <==> state.status == Errored)
    ensures v.Screen? && state.status == Errored ==> v.errorPanel == Some(state.error)
    ensures v.Screen? ==>
      (if v.form then 1 else 0) + (if v.spinner then 1 else 0) + (if v.success then 1 else 0)
      + (if v.errorPanel.Some? then 1 else 0) <= 1
  {
    if ShowsLanding(link) then Landing
    else Screen(
      wallet.Some? && state.status == Idle,
      state.status == Loading,
      state.status == Succeeded,
      if state.status == Errored then Some(state.error) else None,
      wallet.None?)
  }

  /** Try Again brings the name form back and drops the error panel. */
  lemma TryAgainShowsForm(wallet: Option<Key>, link: Link, state: PageState)
    requires wallet.Some? && !ShowsLanding(link)
    ensures Render(wallet, link, TryAgain(state)) == Screen(true, false, false, None, false)
  {
  }

  /** After a run with a wallet the screen shows the success panel or the error text, never the form. */
  lemma RunShowsOutcome(program: bool, wallet: Option<Key>, link: Link, firstName: string, lastName: string,
                        prior: PageState, parse: KeyParser, ledger: Request -> Outcome,
                        mint: MintRequest -> Outcome)
    requires program && wallet.Some? && !ShowsLanding(link)
    ensures var r := HandleCheckIn(program, wallet, link, firstName, lastName, prior, parse, ledger, mint);
      Render(wallet, link, r.state)
        == if r.state.status == Succeeded then Screen(false, false, true, None, false)
           else Screen(false, false, false, Some(r.state.error), false)
  {
  }
}

=== FILE: utf8.dfy ===
/**
 * UTF-8, the encoding `Buffer.from(string)` applies when a string becomes an
 * address seed. A decoder is given alongside so that the encoding can be shown
 * injective by a round trip.
 */
module Utf8 {
  import opened Wrappers
  import opened Bytes

  /** True of the bytes `10xxxxxx` that continue a multi-byte sequence. */
  predicate IsContinuation(b: byte) {
    0x80 <= b < 0xC0
  }

  /** The 1 to 4 bytes encoding one Unicode scalar value. */
  function EncodeChar(c: char): (b: seq<byte>)
    ensures 1 <= |b| <= 4
    ensures |b| == 1 <==> c as int < 0x80
    ensures forall k :: 1 <= k < |b| ==> IsContinuation(b[k])
  {
    var n := c as int;
    if n < 0x80 then
      [n]
    else if n < 0x800 then
      [0xC0 + n / 64, 0x80 + n % 64]
    else if n < 0x10000 then
      [0xE0 + n / 4096, 0x80 + (n / 64) % 64, 0x80 + n % 64]
    else
      [0xF0 + n / 262144, 0x80 + (n / 4096) % 64, 0x80 + (n / 64) % 64, 0x80 + n % 64]
  }

  /** `Buffer.from(s)` for a string of scalar values. */
  function Encode(s: string): (b: seq<byte>)
    ensures |s| <= |b| <= 4 * |s|
    ensures (forall k :: 0 <= k < |s| ==> s[k] as int < 0x80) ==> |b| == |s|
  {
    if s == [] then [] else EncodeChar(s[0]) + Encode(s[1..])
  }

  /** ASCII text encodes to its character codes, one byte each. */
  lemma {:induction false} EncodeAscii(s: string)
    requires forall k :: 0 <= k < |s| ==> s[k] as int < 0x80
    ensures |Encode(s)| == |s|
    ensures forall k :: 0 <= k < |s| ==> Encode(s)[k] == s[k] as int
  {
    if s != [] {
      EncodeAscii(s[1..]);
      assert EncodeChar(s[0]) == [s[0] as int];
      assert Encode(s) == [s[0] as int] + Encode(s[1..]);
    }
  }

  /** Is `n` the code of a Unicode scalar value (not a surrogate, at most U+10FFFF)? */
  predicate IsScalar(n: int) {
    (0 <= n < 0xD800) || (0xE000 <= n < 0x110000)
  }

  /** The code point carried by a two-, three- or four-byte sequence. */
  function Value2(b0: byte, b1: byte): int {
    (b0 as int - 0xC0) * 64 + (b1 as int - 0x80)
  }

  function Value3(b0: byte, b1: byte, b2: byte): int {
    (b0 as int - 0xE0) * 4096 + (b1 as int - 0x80) * 64 + (b2 as int - 0x80)
  }

  function Value4(b0: byte, b1: byte, b2: byte, b3: byte): int {
    (b0 as int - 0xF0) * 262144 + (b1 as int - 0x80) * 4096 + (b2 as int - 0x80) * 64 + (b3 as int - 0x80)
  }

  /**
   * The character at the front of `b` and the number of bytes it takes, or
   * `None` for a malformed, overlong or surrogate sequence.
   */
  function DecodeChar(b: seq<byte>): (r: Option<(char, nat)>)
    ensures r.Some? ==> 1 <= r.value.1 <= |b|
  {
    if |b| == 0 then None
    else if b[0] < 0x80 then Some((b[0] as int as char, 1))
    else if 0xC0 <= b[0] < 0xE0 && |b| >= 2 && IsContinuation(b[1]) then
      var n := Value2(b[0], b[1]);
      if 0x80 <= n then Some((n as char, 2)) else None
    else if 0xE0 <= b[0] < 0xF0 && |b| >= 3 && IsContinuation(b[1]) && IsContinuation(b[2]) then
      var n := Value3(b[0], b[1], b[2]);
      if 0x800 <= n && IsScalar(n) then Some((n as char, 3)) else None
    else if 0xF0 <= b[0] < 0xF8 && |b| >= 4
      && IsContinuation(b[1]) && IsContinuation(b[2]) && IsContinuation(b[3]) then
      var n := Value4(b[0], b[1], b[2], b[3]);
      if 0x10000 <= n && IsScalar(n) then Some((n as char, 4)) else None
    else None
  }

  /** The string `b` encodes, or `None` when `b` is not well-formed UTF-8. */
  function Decode(b: seq<byte>): Option<string>
    decreases |b|
  {
    if b == [] then Some([])
    else
      match DecodeChar(b)
      case None => None
      case Some(p) =>
        match Decode(b[p.1..])
        case None => None
        case Some(rest) => Some([p.0] + rest)
  }

  /** Decoding the front of an encoded character gives back that character. */
  lemma DecodeEncodeChar(c: char, rest: seq<byte>)
    ensures DecodeChar(EncodeChar(c) + rest) == Some((c, |EncodeChar(c)|))
  {
    var n := c as int;
    var b := EncodeChar(c) + rest;
    if n < 0x80 {
    } else if n < 0x800 {
      assert b[0] == 0xC0 + n / 64 && b[1] == 0x80 + n % 64;
      assert Value2(b[0], b[1]) == n;
    } else if n < 0x10000 {
      assert b[0] == 0xE0 + n / 4096 && b[1] == 0x80 + (n / 64) % 64 && b[2] == 0x80 + n % 64;
      assert (n / 64) == (n / 4096) * 64 + (n / 64) % 64;
      assert Value3(b[0], b[1], b[2]) == n;
    } else {
      assert b[0] == 0xF0 + n / 262144;
      assert b[1] == 0x80 + (n / 4096) % 64 && b[2] == 0x80 + (n / 64) % 64 && b[3] == 0x80 + n % 64;
      assert (n / 4096) == (n / 262144) * 64 + (n / 4096) % 64;
      assert (n / 64) == (n / 4096) * 64 + (n / 64) % 64;
      assert Value4(b[0], b[1], b[2], b[3]) == n;
    }
  }

  /** Decoding inverts encoding. */
  lemma {:induction false} DecodeEncode(s: string)
    ensures Decode(Encode(s)) == Some(s)
  {
    if s != [] {
      var e := EncodeChar(s[0]);
      var tail := Encode(s[1..]);
      DecodeEncodeChar(s[0], tail);
      assert (e + tail)[|e|..] == tail;
      DecodeEncode(s[1..]);
      assert [s[0]] + s[1..] == s;
    }
  }

  /** Distinct strings give distinct seed bytes. */
  lemma EncodeInjective(s: string, t: string)
    requires Encode(s) == Encode(t)
    ensures s == t
  {
    DecodeEncode(s);
    DecodeEncode(t);
  }
}

=== FILE: wrappers.dfy ===
/** Option and Result, the two failure-carrying shapes the model needs. */
module Wrappers {

  /** A value that may be absent: `null`/`undefined` in JavaScript. */
  datatype Option<+T> = None | Some(value: T) {

    /** The carried value, or `default` when absent. */
    function GetOr(default: T): T {
      match this
      case Some(v) => v
      case None => default
    }
  }

  /** The outcome of an operation that either yields a value or throws. */
  datatype Result<+R, +E> = Success(value: R) | Failure(error: E)
}
